=== FILE: README.md ===
# The 15th-Century Monarch bot, modelled in Dafny

The bot plays King Maximilian VII of France, who posts from the year 1462 into one channel of
each Discord server. It answers the daily "question of the day" (QOTD), replies when mentioned,
and occasionally offers an unasked-for aside, within a daily quota. Each QOTD raises the
"peasant unrest"; at 101% the king is dead and says nothing more. Replies are written by a
language model, from a system prompt built out of:

- the persona;
- the unrest;
- two dates, 1462 and today;
- up to three facts from a vector database;
- the conversation so far.

After each answer a second model call may rewrite the facts it drew on.

This project models that core as pure functions over immutable data and proves what the code
promises. Everything outside the program is a parameter:

- the clock;
- the random draw;
- the vector query's result arrays;
- the two model replies.

| file | module | models |
|---|---|---|
| `wrappers.dfy` | `Wrappers` | `Option` and `Result` |
| `text.dfy` | `Text` | the Python string operations the code relies on: `strip`, ASCII `lower`, `str.replace`, `split('\n')`, `"\n".join`, `f"{n}"` and zero-padded `strftime` fields, each with its round trip |
| `dates.dfy` | `Dates` | `utils.today` and `utils.old_times_today` as formatting of a date passed in |
| `server_manager.dfy` | `ServerManager` | the per-server registry as a `map<int, State>` |
| `database.dfy` | `FactStore` | `choose_relevant_facts`, `update_fact`, the seeding of the fact collection |
| `fact_learner.dfy` | `FactLearner` | `extract_and_update_facts`: the `ID:` / `UPDATED_FACT:` reader and the updates it applies |
| `chat_engine.dfy` | `ChatEngine` | `generate_response`: prompt assembly, the conversation, answer clean-up, learning |
| `message_handlers.dfy` | `MessageHandlers` | `handle_message`: the gate and the handler |
| `gate_properties.dfy` | `GateProperties` | what the handler promises over one message and over runs of messages |
| `prototype.dfy` | `Prototype` | the earlier single-file bot's `on_message` gate and `decide_advice`, compared with the newer handler |

Behaviour worth knowing, all modelled as written:

- `responses_sent` is never reset; the QOTD reset leaves it alone. `can_respond` allows
  `responses_sent <= max`, so after `max` counted answers a mention gets a farewell, which
  takes the counter to `max + 1`. From then on the server is silent on every later day too.
  `GateProperties.SilentForever` proves this.
- QOTD answers do not count against the quota. The farewell does.
- The farewell is generated with the stored conversation. It adds the line `": "` (an empty
  user name and message) and its answer to that conversation.
- An exception from the model call or from the vector query ends the handler. Nothing is
  posted and the response counter does not move. On the QOTD path the daily reset has already
  happened: unrest has risen and the date is set, so that day's question is not answered
  again. The user's line stays in the conversation when only the model call failed, because
  it was added before the call.
- `line.replace('ID:', '')` removes every occurrence of the prefix, not only the leading one.
  Fact lines before the first `ID:` line are dropped, and within a block the last
  `UPDATED_FACT:` line wins.
- A server id of 0 is falsy in Python. Such a message uses no facts and keeps no conversation.

## Model

| member | source | states |
|---|---|---|
| Text.Strip | chat_engine.py:195 | `str.strip()`: the result has no whitespace at either end; it is empty exactly when the input is all whitespace; a string with solid ends is unchanged |
| Text.StripCutsEnds | chat_engine.py:195 | `strip()` only cuts whitespace off the two ends: the input is leading whitespace, then the result, then trailing whitespace |
| Text.StripIdempotent | chat_engine.py:195 | stripping twice is stripping once |
| Text.StripAddsNothing | monarch_bot.py:237 | stripping introduces no character that was not there |
| Text.Lower | message_handlers.py:32 | `lower()` keeps the length and lowers each ASCII letter in place |
| Text.ReplaceAbsent | chat_engine.py:201 | `str.replace` of a pattern that does not occur returns the text unchanged |
| Text.RemoveChar | chat_engine.py:118 | `replace("*", "")`: the character is gone, the result is no longer, and every other character occurs as often as before |
| Text.RemoveCharAbsent | chat_engine.py:118 | removing a character that does not occur changes nothing |
| Text.RemoveCharIsReplace | chat_engine.py:118 | removing one character is `str.replace` with that one-character pattern and `""` |
| Text.CollapseKeepsOthers | chat_engine.py:118 | `replace("\n\n", "\n")` keeps every other character's count, never adds a newline and never lengthens the text |
| Text.Split | chat_engine.py:189 | `split('\n')` gives at least one piece, and no piece contains the separator |
| Text.JoinSplit | chat_engine.py:189 | joining the pieces of a split with the separator gives the text back |
| Text.SplitJoin | chat_engine.py:94 | splitting separator-free pieces joined by the separator gives the pieces back |
| Text.DecimalRoundTrip | chat_engine.py:90 | the decimal printing of a natural number reads back as that number |
| Text.DecimalInjective | chat_engine.py:90 | two numbers print alike exactly when they are equal |
| Text.DecimalPrintsBack | chat_engine.py:90 | a canonical digit string is the printing of its value |
| Text.IntRoundTrip | chat_engine.py:90 | `f"{n}"` of any integer, sign included, parses back to the integer |
| Text.ZeroPaddedRoundTrip | utils.py:9 | a zero-padded `%m`/`%d`/`%Y` field reads back as its number when it fits the width |
| Dates.Format | utils.py:7-9 | `%Y-%m-%d` is ten characters: four digits, a dash, two digits, a dash, two digits |
| Dates.FormatReadsBack | utils.py:7-9 | the three digit groups of the formatted date read back as year, month and day |
| Dates.FormatInjective | utils.py:7-9 | two dates format alike exactly when they are the same date, so "answered today" compares days |
| Dates.OldTimesToday | utils.py:11-15 | `"1462-"` followed by today's month and day, which is the formatted date of the same day in 1462 |
| ServerManager.GetServerState | server_manager.py:6-19 | afterwards the server has a record and the returned state is that record; the keys grow by exactly this id; existing records are untouched; a new record has empty date, 0 responses, empty history, 0 unrest and empty summary |
| ServerManager.FieldsDetermineState | server_manager.py:10-17 | a record is its five keys: records that agree on every field are equal |
| ServerManager.ReadAfterUpdate | server_manager.py:26-28 | after one keyword update, the named field holds the new value and every other field its old one |
| ServerManager.UpdateKeepsUnnamedField | server_manager.py:26-28 | a field no keyword names keeps its value through the whole update |
| ServerManager.UpdateLastValueWins | server_manager.py:26-28 | a field holds the value of the last keyword naming it |
| ServerManager.UpdateServerState | server_manager.py:21-28 | an unknown server is left alone; no server appears or disappears; other servers are untouched; unknown keys change nothing |
| ServerManager.ResetDailyChat | server_manager.py:30-37 | the history is emptied, unrest rises by exactly 1, the date becomes today; the response counter and the summary are kept; nothing else changes, and an unknown server is left alone |
| ServerManager.ResetIsUpdate | server_manager.py:30-37 | the daily reset is the keyword update of exactly those three fields |
| ServerManager.AddToChatHistory | server_manager.py:39-44 | one entry is appended: the history grows by one, keeps the old history as its prefix and ends with the given role and content; nothing else changes |
| ServerManager.CanRespond | server_manager.py:46-58 | an unknown server may be answered; unrest of 101 or more forbids any answer; otherwise an answer is allowed exactly when `responses_sent <= max` |
| ServerManager.IncrementResponses | server_manager.py:60-65 | the counter of exactly this server rises by one; every other field and server is unchanged |
| ServerManager.IncrementIsUpdate | server_manager.py:60-65 | the increment is the keyword update of the counter |
| ServerManager.IsQotdAnsweredToday | server_manager.py:67-74 | false for an unknown server; otherwise true exactly when the stored date is today's formatted date |
| ServerManager.AnsweredOnlyOnTheResetDay | server_manager.py:67-74 | after a reset on one day, the question counts as answered on another day exactly when the two days are the same |
| FactStore.Qualifying | database.py:80-81 | the kept positions each have an id and a distance strictly below the threshold; there are no more of them than distances or ids |
| FactStore.QualifyingAscending | database.py:80-84 | kept positions come in strictly increasing order, so the query's order is preserved |
| FactStore.QualifyingComplete | database.py:80-81 | every position that qualifies is kept |
| FactStore.ScanFailsOnMissingDocument | database.py:80-84 | the scan raises exactly when some kept position has no document |
| FactStore.ScanPairsQualifying | database.py:80-84 | a successful scan pairs `ids[i]` with `documents[i]` at exactly the kept positions, in order |
| FactStore.ChooseRelevantFacts | database.py:62-86 | no ids, or an empty id list, gives no facts; otherwise, on success, exactly the (id, document) pairs whose distance is below the threshold, in query order, never more than there are ids; it raises exactly when there are ids but no distance array, or a kept position has no document |
| FactStore.AtMostThreeFacts | database.py:72-76 | a query that honours `n_results=3` yields at most three facts |
| FactStore.WellFormedQuerySucceeds | database.py:79-84 | when the id, document and distance arrays have equal length, the selection never raises |
| FactStore.KeptFactsClosestFirst | database.py:80-84 | when the query returns distances closest first, the kept facts are closest first too |
| FactStore.UpdateFact | database.py:88-107 | the document of exactly the given id is replaced; no id appears or disappears |
| FactStore.SeedIds | database.py:55 | the seed ids are the canonical decimals `"1"` to `"n"`, in order and pairwise distinct |
| FactStore.SetupInitialFacts | database.py:24-60 | the collection holds exactly the seed ids, with the i-th document under id i+1 |
| FactStore.InitializeFacts | database.py:18-20 | a non-empty collection is kept as it is; an empty one ends up holding exactly the seed ids `"1"`…`"n"`, the i-th document under id i+1 |
| FactLearner.ParseUpdates | chat_engine.py:182-209 | `"NO_UPDATES"` (after stripping) yields no update; otherwise the loop yields exactly the block reading of the answer's lines; every update has a non-empty id and text, and there are never more updates than `ID:` lines |
| FactLearner.FoldIsBlockReading | chat_engine.py:194-209 | the loop over lines with its `current_id`/`current_fact` variables equals the block reading: the pending pair, completed by the lines before the next `ID:` line, then one update per block |
| FactLearner.PreambleIsDropped | chat_engine.py:196-204 | lines before the first `ID:` line, fact lines included, contribute nothing |
| FactLearner.LastFactLineWins | chat_engine.py:203-204 | within a block, the last `UPDATED_FACT:` line is the one kept |
| FactLearner.ExpectedIsWellFormed | chat_engine.py:197-209 | the block reading yields updates with non-empty id and text only, at most one per `ID:` line |
| FactLearner.OnePairOneUpdate | chat_engine.py:196-209 | an id line followed by a fact line gives exactly that one update |
| FactLearner.OnePairAnswer | chat_engine.py:164-209 | an answer written in the requested format, `ID: <id>` then `UPDATED_FACT: <fact>`, is read back as exactly the update (id, fact) |
| FactLearner.ApplyUpdates | chat_engine.py:194-209 | applying updates keeps the set of ids; an id no update names keeps its document |
| FactLearner.LastUpdateWins | chat_engine.py:197-209 | when an id is updated more than once, its last update is the one stored |
| FactLearner.ExtractAndUpdateFacts | chat_engine.py:132-221 | no referenced facts or a failing model call leave the store unchanged; so does `"NO_UPDATES"`; otherwise exactly the parsed updates are applied; ids never appear or disappear |
| ChatEngine.FactLines | chat_engine.py:94 | one `- <content>` line per fact, in order |
| ChatEngine.FactsBlock | chat_engine.py:93-95 | the advisor block is empty exactly when there are no facts, and otherwise starts with the advisor header |
| ChatEngine.SummaryBlock | chat_engine.py:99-100 | the summary block is empty exactly when the summary is, and otherwise is the header followed by the summary |
| ChatEngine.UnrestReadsBack | chat_engine.py:88-90 | the run of digits right after the text introducing the unrest reads back as the unrest value |
| ChatEngine.BackgroundNamesBothDays | chat_engine.py:91 | the background holds the 1462 date and today's date at their places |
| ChatEngine.FactsOnePerLine | chat_engine.py:93-95 | when no fact spans lines, splitting the advisor block after its header gives back one line per fact |
| ChatEngine.CleanReply | chat_engine.py:118 | the cleaned answer has no `*` and no `"` and is no longer than the reply |
| ChatEngine.CleanReplyIsReplace | chat_engine.py:118 | cleaning is the three `str.replace` calls in their order: collapse `\n\n`, then drop `*`, then drop `"` |
| ChatEngine.CleanKeepsText | chat_engine.py:118 | cleaning keeps every other character as often as it occurred and never adds a newline |
| ChatEngine.CollapseIsOnePass | chat_engine.py:118 | the newline collapse is a single pass: three newlines leave two |
| ChatEngine.SlicePrefix | chat_engine.py:120 | `s[:n]` is a prefix of the length Python gives, for negative `n` too |
| ChatEngine.Truncate | chat_engine.py:120 | an answer that fits is unchanged; a longer one is cut to a prefix and ends in `"..."`, and for `max >= 0` is `max + 3` long |
| ChatEngine.PostProcess | chat_engine.py:118-120 | the posted answer has no `*` or `"`; it is the cleaned reply when that fits; otherwise it is a prefix of the cleaned reply followed by `"..."`, and for `max >= 0` exactly its first `max` characters followed by `"..."`, so at most `max + 3` long |
| ChatEngine.GenerateResponse | chat_engine.py:50-130 | the call raises from the query exactly when there is a server id and the selection fails, and then writes nothing; otherwise no server or fact id appears or disappears, other servers are untouched, and without a server id or state no conversation is kept |
| ChatEngine.Listen | chat_engine.py:102-106 | the user's line is appended to the kept conversation, and the model is sent the system prompt followed by it (the line's `"<name>: <message>"` format is stated by `ChatEngine.GenerateSendsPromptAndConversation`) |
| ChatEngine.Speak | chat_engine.py:118-128 | the processed answer is appended to the kept conversation; the store changes only with a server id, facts used and learning on, and then by the learner's updates |
| ChatEngine.GenerateTouchesOnlyHistory | chat_engine.py:104-123 | of the server's record only the conversation changes |
| ChatEngine.GenerateSendsPromptAndConversation | chat_engine.py:102-106 | the model sees the system prompt first, then the stored conversation ending in the user's line, or the prompt alone when none is kept; the prompt carries the server's unrest (0 without a state), the facts just retrieved (none without a server id), the caller's instruction, and the summary only when the conversation is kept |
| ChatEngine.GenerateAnswersWithTheReply | chat_engine.py:109-120 | an answer comes out exactly when the query succeeds and the model replies, and it is the post-processed reply; any other failure is the model's |
| ChatEngine.GenerateKeepsTheQuestion | chat_engine.py:104-109 | when the model call fails, the user's line is already in the conversation |
| ChatEngine.GenerateRecordsTheExchange | chat_engine.py:104-123 | on success the conversation grows by the user's line followed by the posted answer |
| ChatEngine.GenerateLearnsOnlyWhenEnabled | chat_engine.py:125-128 | facts change only after a successful answer with learning on and a server id, and then by exactly the learner's updates |
| MessageHandlers.Trimmed | message_handlers.py:32 | the trimmed message is lower case, has no `*`, and keeps every other character of the lowered message as often as it occurred |
| MessageHandlers.TrimmedIsReplace | message_handlers.py:32 | trimming is `lower()` followed by `replace("*", "")` |
| MessageHandlers.Decide | message_handlers.py:26-151 | blocked exactly when `can_respond` fails; the QOTD path exactly when the phrase is there and today's question is unanswered; a mention reply only once today's question is answered, as a farewell exactly at `responses_sent == max`; waiting exactly when the question is not there and today's question is unanswered; an aside exactly when, on an answered day and without a mention, asides are enabled and a trigger word or a lucky draw provokes one |
| MessageHandlers.Gate | message_handlers.py:15-24 | the bot's own messages and other channels are ignored and leave the registry alone; any other message first gets the server's record |
| MessageHandlers.Settle | message_handlers.py:97-150 | the answer is posted exactly when it was generated; the counter rises only for a posted mention, farewell or aside |
| MessageHandlers.Opened | message_handlers.py:55-56 | the QOTD path starts this server's day before answering (empty conversation, unrest one higher, today's date, counter and summary kept); other modes and other servers are untouched |
| MessageHandlers.Ask | message_handlers.py:56-146 | the engine call changes this server's conversation only, apart from the QOTD reset's unrest and date; it answers exactly when the model replies and, with a server id, the query succeeds, and the answer is the post-processed reply |
| MessageHandlers.HandleMessage | message_handlers.py:12-151 | nothing is posted or stored unless the handler answers; other servers are untouched; unrest rises by one exactly on the QOTD path; the counter rises by one exactly for a posted mention, farewell or aside; the date changes exactly on the QOTD path; an answering mode posts exactly when the model replies and, with a server id, the query succeeds |
| GateProperties.PostsAreProcessedReplies | message_handlers.py:60-147 | whatever is posted is the model's reply after post-processing, in an answering mode |
| GateProperties.AnswersAreRecorded | message_handlers.py:52-147 | a QOTD starts the conversation afresh and other answers continue it; a posted answer follows the user's line |
| GateProperties.OneQuestionPerDay | message_handlers.py:52 | after a message takes the QOTD path, the next message from that server on the same day does not, whether or not the model answered: the reset has already set the date |
| GateProperties.SilenceHolds | message_handlers.py:26-30 | a server that may not be answered keeps its record through any message, and nothing is posted there |
| GateProperties.SilentForever | server_manager.py:46-58 | over any run of messages on any days, a dead or over-quota server never changes and is never answered |
| GateProperties.DeathIsFinal | server_manager.py:53-55 | once unrest reaches 101, the king stays dead and silent on that server |
| GateProperties.OneStepAtATime | message_handlers.py:52-151 | one message raises unrest and the counter by at most one each, and never lowers them |
| GateProperties.CountersNeverFall | server_manager.py:30-65 | over any run of messages, unrest and the response counter never fall |
| GateProperties.FarewellEndsTheDay | message_handlers.py:84-102 | with the quota exactly used up, a mention on an answered day gets the farewell; once posted, the server is silenced |
| GateProperties.Draws | message_handlers.py:132 | `randint(1, n)` ranges over exactly the n values 1 to n |
| GateProperties.AsideChance | message_handlers.py:130-133 | without a trigger word, a short message is never answered, and a long one is answered for exactly `2 * (max - sent)` of the 100 draws, clamped to 0..100 |
| GateProperties.TriggerWordAlwaysWorks | message_handlers.py:131 | on an answered day with asides enabled, a message naming a trigger word and not mentioning the king is handled as an aside whatever the draw, and counts once posted |
| GateProperties.PromptCarriesTheUnrest | chat_engine.py:88-90 | the prompt of every answer reads back the unrest of that moment: one more than stored on the QOTD path, whose reset comes first, and the stored value otherwise |
| GateProperties.TrimmedIsNormal | message_handlers.py:32 | trimming is a normal form: trimming twice is trimming once |
| Prototype.ProtoRecord | monarch_bot.py:200-205 | the server gets a record, and a new one has an empty date, 0 responses and an empty history |
| Prototype.ProtoClean | monarch_bot.py:237 | the prototype's cleaned reply has no `*` |
| Prototype.ProtoDecide | monarch_bot.py:208-271 | blocked exactly when `responses_sent > 3`; the QOTD path exactly when the phrase is there and the date is not today; silence before the day's question; one merged condition for mention, trigger word and draw, with a farewell exactly at 3 |
| Prototype.ProtoGate | monarch_bot.py:190-205 | the bot's own messages and channels other than `qotd` are ignored |
| Prototype.ProtoAnswer | monarch_bot.py:227-298 | in each answering branch, something is posted exactly when the model replies, and it is the reply cleaned |
| Prototype.ProtoHandle | monarch_bot.py:187-300 | something is posted exactly in an answering mode when the model replies, and it is the cleaned reply; other servers are untouched |
| Prototype.ProtoEffects | monarch_bot.py:241-298 | the QOTD replaces the history with the question and answer and sets the date, leaving the counter; the farewell only counts; a reply appends `They said` and then `You said` and counts once answered |
| Prototype.ProtoSilenceHolds | monarch_bot.py:208-210 | past the quota a server's record never changes and nothing is posted there |
| Prototype.DecideAdvice | monarch_bot.py:165-179 | an unknown advisor gets no advice; advice is one line with no whitespace at its ends |
| Prototype.AdviceOnlyFromKnownAdvisors | monarch_bot.py:165-179 | for an unknown advisor the model's text plays no part; for a known one the advice is that text with newlines removed and stripped |
| Prototype.GatesAgree | monarch_bot.py:187-271 | configured alike, the prototype and the newer handler make the same decision, except that the newer one keeps the farewell for mentions and answers a trigger at the limit with an aside |
| Prototype.TriggerAtQuotaDiffers | monarch_bot.py:254-257 | the message "king" at an exhausted quota gets the farewell from the prototype and an aside from the newer handler |
| Prototype.CleanUpsCompared | monarch_bot.py:237 | on a reply without quotes, the prototype's clean-up is the newer one followed by `strip` |

## Left out

- Model calls (`litellm.completion`, `genai` `generate_content`): their replies are inputs.
  `None` stands for a raised exception. Temperatures, web-search options and the extraction
  prompt's text are not modelled.
- Discord plumbing (`reply`, `channel.send`, `typing`, `client.run`, event registration):
  the handler's output is the mode it chose and the text it posted. Replying and sending to
  the channel are not distinguished. Every generated answer counts as posted: in the
  source `increment_responses` runs only after the send returns, so a post Discord refuses
  (an answer that is empty after clean-up, say) raises before the counter moves.
- The vector database (ChromaDB): similarity ranking is replaced by the query's result arrays
  as an input. An update of an id the collection does not hold is treated as a no-op. The
  collection is always present (truthy).
- Wall-clock reads: the model reads the date once per message. The source reads it several
  times, so a message handled across midnight is not modelled.
- `random.randint(1, 100)`: the draw is a parameter. `GateProperties.AsideChance` counts
  the draws that provoke an aside.
- The prompt prose: the persona text is a parameter, split around its placeholders. Only the
  order of the parts and the values put into them are modelled.
- `setup_logging`, every logger call, `on_ready_handler`, `config.py`, `main.py` and
  `setup_chroma.py`: logging, configuration loading and start-up wiring.
- Asynchronous scheduling: handlers run one message at a time.
- The `server_name` argument of `get_server_state`, which the code never uses.
- `str.lower` on non-ASCII letters: only ASCII letters are lowered.
- The relevance threshold and the distances are `real`, not binary floating point.
- A store error raised in the middle of the fact-update loop, after some updates are applied:
  the model applies all updates or, on a failing extraction call, none.
- The prototype's `decide_advisor`, its prompt texts and its log-file switching: model
  calls and logging.
- PromptCarriesTheUnrest: stated for unrest of 0 or more. Unrest starts at 0 and never
  falls, and a negative value would print with a minus sign.
- UnrestReadsBack: stated for unrest of 0 or more. A negative value would print with a
  minus sign, and unrest starts at 0 and never falls (`GateProperties.CountersNeverFall`).
- AtMostThreeFacts: assumes the query honours `n_results=3`, a promise of the database
  library.
- GenerateKeepsTheQuestion: stated for a non-zero server id with state. Without one,
  `GenerateResponse` promises that the registry is unchanged.
- AnswersAreRecorded: when nothing is posted, it says only that the conversation holds at most
  the user's line. It does not say whether the query or the model call failed.
- Decide: assumes the server already has a record, which `Gate` guarantees by creating it first.

=== FILE: chat_engine.dfy ===
/** `generate_response` of `chat_engine.py`: the system prompt is assembled from the persona
    text, today's unrest, the two dates, the relevant facts, the caller's extra instruction and
    the running summary; the conversation is extended with the user's line and the cleaned-up
    answer; and, when enabled, the facts that were used are offered for rewriting. The language
    model's two answers, the vector query's result and the clock are inputs (`World`). */
module ChatEngine {
  import opened Wrappers
  import opened Text
  import opened Dates
  import opened ServerManager
  import opened FactStore
  import opened FactLearner

  /** The persona prose around its three placeholders: the unrest percentage in the writer
      instructions, the king's date and the present date in the background. */
  datatype Persona = Persona(
    beforeUnrest: string,
    afterUnrest: string,
    beforePast: string,
    betweenDates: string,
    afterPresent: string)

  /** The settings `generate_response` reads. */
  datatype EngineConfig = EngineConfig(
    relevanceThreshold: real,
    maxResponseLength: int,
    autoLearnFacts: bool,
    persona: Persona)

  /** What the outside world supplies to one call. */
  datatype World = World(
    today: CalendarDate,
    query: QueryResult,          // the vector query for the message
    reply: Option<string>,       // the model's answer; None when the call raises
    extraction: Option<string>)  // the fact-extraction answer; None when that call raises

  datatype Fault = QueryFailed(e: QueryError) | ModelFailed

  /** What one call leaves behind: the registry and fact store after it, the messages it sent
      to the model, and the answer or the exception that ended it. */
  datatype Generated = Generated(
    registry: Registry,
    store: Store,
    sent: seq<Entry>,
    answer: Result<string, Fault>)

  const AdvisorHeader: string := "\nYour advisor thought this information may be relevant:\n"
  const SummaryHeader: string := "\nSummary of the messages so far: "
  const Ellipsis: string := "..."

  // ---------------------------------------------------------------------------------------
  // The system prompt

  function WriterInstructions(p: Persona, unrest: int): string {
    p.beforeUnrest + IntToDecimal(unrest) + p.afterUnrest
  }

  function Background(p: Persona, today: CalendarDate): string {
    p.beforePast + OldTimesToday(today) + p.betweenDates + Format(today) + p.afterPresent
  }

  /** One `- <content>` line per fact, in order. */
  function FactLines(facts: seq<Fact>): (r: seq<string>)
    ensures |r| == |facts|
    ensures forall i :: 0 <= i < |facts| ==> r[i] == "- " + facts[i].content
  {
    seq(|facts|, i requires 0 <= i < |facts| => "- " + facts[i].content)
  }

  /** The advisor block: present exactly when there are facts. */
  function FactsBlock(facts: seq<Fact>): (r: string)
    ensures facts == [] <==> r == ""
    ensures facts != [] ==> AdvisorHeader <= r
  {
    if facts == [] then "" else AdvisorHeader + Join(FactLines(facts), "\n")
  }

  /** The summary block: present exactly when the shown summary is non-empty. */
  function SummaryBlock(summary: string): (r: string)
    ensures summary == "" <==> r == ""
    ensures summary != "" ==> SummaryHeader <= r && |r| == |SummaryHeader| + |summary| && r[|SummaryHeader|..] == summary
  {
    if summary == "" then "" else SummaryHeader + summary
  }

  function SystemPrompt(p: Persona, unrest: int, today: CalendarDate, facts: seq<Fact>,
                        additional: string, summary: string): string
  {
    WriterInstructions(p, unrest) + PromptRest(p, today, facts, additional, summary)
  }

  /** Everything after the writer instructions, in the order it is appended. */
  function PromptRest(p: Persona, today: CalendarDate, facts: seq<Fact>, additional: string,
                      summary: string): string
  {
    Background(p, today) + FactsBlock(facts) + "\n" + additional + SummaryBlock(summary)
  }

  /** The unrest percentage can be read back from the prompt: the run of digits right after
      the text that introduces it is exactly the number. */
  lemma UnrestReadsBack(p: Persona, unrest: nat, today: CalendarDate, facts: seq<Fact>,
                        additional: string, summary: string)
    requires p.afterUnrest != [] && !IsDigit(p.afterUnrest[0])
    ensures var prompt := SystemPrompt(p, unrest, today, facts, additional, summary);
      && |p.beforeUnrest| <= |prompt|
      && DecimalValue(DigitPrefix(prompt[|p.beforeUnrest|..])) == unrest
  {
    var d := NatToDecimal(unrest);
    var t := PromptRest(p, today, facts, additional, summary);
    DropFront(p.beforeUnrest, d, p.afterUnrest, t);
    DigitPrefixOfDigits(d, p.afterUnrest + t);
    DecimalRoundTrip(unrest);
  }

  /** The background names the king's day and the present day; both read back as dates. */
  lemma BackgroundNamesBothDays(p: Persona, today: CalendarDate)
    ensures var b := Background(p, today);
      var k := |p.beforePast|;
      var m := k + 10 + |p.betweenDates|;
      && m + 10 <= |b|
      && b[k..k + 10] == Format(Date(KingsYear, today.month, today.day))
      && b[m..m + 10] == Format(today)
  {
  }

  /** The advisor block lists each fact on a line of its own when no fact spans lines. */
  lemma FactsOnePerLine(facts: seq<Fact>)
    requires facts != []
    requires forall i :: 0 <= i < |facts| ==> '\n' !in facts[i].content
    ensures var b := FactsBlock(facts);
      && AdvisorHeader <= b
      && Split(b[|AdvisorHeader|..], '\n') == FactLines(facts)
  {
    var lines := FactLines(facts);
    forall k | 0 <= k < |lines| ensures '\n' !in lines[k] {
      assert lines[k] == "- " + facts[k].content;
    }
    SplitJoin(lines, '\n');
    var b := FactsBlock(facts);
    assert b[|AdvisorHeader|..] == Join(lines, "\n");
  }

  // ---------------------------------------------------------------------------------------
  // Cleaning up the answer

  /** The three replacements, in order: one pass collapsing `\n\n` to `\n`, then every `*`
      and every `"` removed. */
  function CleanReply(raw: string): (r: string)
    ensures '*' !in r && '"' !in r
    ensures |r| <= |raw|
  {
    var collapsed := ReplaceAll(raw, "\n\n", "\n");
    CollapseKeepsOthers(raw, '\n');
    var noStars := RemoveChar(collapsed, '*');
    var r := RemoveChar(noStars, '"');
    assert multiset(r)['*'] == multiset(noStars)['*'] == 0;
    r
  }

  /** Cleaning keeps every other character, as often as it occurred, and never adds a newline. */
  lemma CleanKeepsText(raw: string, c: char)
    ensures c != '*' && c != '"' && c != '\n' ==> multiset(CleanReply(raw))[c] == multiset(raw)[c]
    ensures multiset(CleanReply(raw))['\n'] <= multiset(raw)['\n']
  {
    CollapseKeepsOthers(raw, '\n');
  }

  /** Cleaning is the three Python calls in order: `replace("\n\n", "\n")`, then
      `replace("*", "")`, then `replace('"', '')`. */
  lemma CleanReplyIsReplace(raw: string)
    ensures CleanReply(raw) == ReplaceAll(ReplaceAll(ReplaceAll(raw, "\n\n", "\n"), "*", ""), "\"", "")
  {
    var collapsed := ReplaceAll(raw, "\n\n", "\n");
    RemoveCharIsReplace(collapsed, '*');
    RemoveCharIsReplace(RemoveChar(collapsed, '*'), '"');
  }

  /** The collapse is a single pass: a run of three newlines leaves two. */
  lemma CollapseIsOnePass()
    ensures CleanReply("\n\n\n") == "\n\n"
  {
  }

  /** Python's `s[:n]`: a negative `n` counts from the end. */
  function SlicePrefix(s: string, n: int): (r: string)
    ensures r <= s
    ensures n >= 0 ==> |r| == if n <= |s| then n else |s|
    ensures n < 0 ==> |r| == if |s| + n >= 0 then |s| + n else 0
  {
    if n >= 0 then (if n <= |s| then s[..n] else s)
    else if |s| + n >= 0 then s[..|s| + n] else []
  }

  /** `(answer[:max_length] + "...") if len(answer) > max_length else answer`. */
  function Truncate(s: string, maxLength: int): (r: string)
    ensures |s| <= maxLength ==> r == s
    ensures |s| > maxLength ==> |r| >= 3 && r[|r| - 3..] == Ellipsis && r[..|r| - 3] <= s
    ensures |s| > maxLength && maxLength >= 0 ==> |r| == maxLength + 3
  {
    if |s| > maxLength then SlicePrefix(s, maxLength) + Ellipsis else s
  }

  /** The answer as posted: cleaned, then cut to the configured length with an ellipsis. It has
      no `*` and no `"`, and is never longer than the limit plus the three dots. */
  function PostProcess(raw: string, maxLength: int): (r: string)
    ensures '*' !in r && '"' !in r
    ensures maxLength >= 0 ==> |r| <= maxLength + 3
    ensures |CleanReply(raw)| <= maxLength ==> r == CleanReply(raw)
    ensures |CleanReply(raw)| > maxLength ==> |r| >= 3 && r[..|r| - 3] <= CleanReply(raw) && r[|r| - 3..] == Ellipsis
    ensures maxLength >= 0 && |CleanReply(raw)| > maxLength ==> r == CleanReply(raw)[..maxLength] + Ellipsis
  {
    var c := CleanReply(raw);
    var r := Truncate(c, maxLength);
    assert |c| > maxLength ==> r == r[..|r| - 3] + Ellipsis;
    r
  }

  // ---------------------------------------------------------------------------------------
  // One call

  /** The user's line in the conversation. */
  function UserLine(username: string, message: string): string {
    username + ": " + message
  }

  /** The call ended in the query's exception. */
  predicate QueryRaised(a: Result<string, Fault>) {
    a.Failure? && a.error.QueryFailed?
  }

  /** `generate_response(message, config, facts, server_id, additional, username, state)`.
      `withState` says a server state was passed; the callers always pass the registry's own
      record for `serverId`, so it is read from there. A server id of 0 counts as absent. */
  function GenerateResponse(reg: Registry, store: Store, cfg: EngineConfig, message: string,
                            serverId: int, additional: string, username: string,
                            withState: bool, w: World): (g: Generated)
    requires withState ==> serverId in reg
    // a failing query raises before anything is written
    ensures QueryRaised(g.answer) <==>
      serverId != 0 && ChooseRelevantFacts(w.query, cfg.relevanceThreshold).Failure?
    ensures QueryRaised(g.answer) ==> g.registry == reg && g.store == store
    // only the conversation of this server changes, and only when it is being kept
    ensures g.registry.Keys == reg.Keys && g.store.Keys == store.Keys
    ensures forall k :: k in reg && k != serverId ==> g.registry[k] == reg[k]
    ensures serverId == 0 || !withState ==> g.registry == reg
  {
    var query := if serverId != 0 then ChooseRelevantFacts(w.query, cfg.relevanceThreshold) else Success([]);
    if query.Failure? then Generated(reg, store, [], Failure(QueryFailed(query.error)))
    else
      var facts := query.value;
      var unrest := if withState then reg[serverId].unrest else 0;
      var keeping := serverId != 0 && withState;
      var summary := if keeping then reg[serverId].activeSummary else "";
      var prompt := SystemPrompt(cfg.persona, unrest, w.today, facts, additional, summary);
      var heard := Listen(reg, serverId, keeping, prompt, Entry(User, UserLine(username, message)));
      match w.reply
      case None => Generated(heard.0, store, heard.1, Failure(ModelFailed))
      case Some(raw) =>
        var spoken := Speak(heard.0, store, cfg, serverId, keeping, facts, raw, w.extraction);
        Generated(spoken.0, spoken.1, heard.1, Success(PostProcess(raw, cfg.maxResponseLength)))
  }

  /** Before the model is called: the user's line joins the kept conversation, and the model
      is sent the system prompt followed by that conversation, or the prompt alone. */
  function Listen(reg: Registry, serverId: int, keeping: bool, prompt: string, line: Entry): (r: (Registry, seq<Entry>))
    requires keeping ==> serverId in reg
    ensures r.0.Keys == reg.Keys
    ensures forall k :: k in reg && k != serverId ==> r.0[k] == reg[k]
    ensures !keeping ==> r.0 == reg && r.1 == [Entry(System, prompt)]
    ensures keeping ==> r.0[serverId] == reg[serverId].(chatHistory := reg[serverId].chatHistory + [line])
    ensures keeping ==> r.1 == [Entry(System, prompt)] + reg[serverId].chatHistory + [line]
  {
    if keeping then
      var reg1 := AddToChatHistory(reg, serverId, line.role, line.content);
      assert reg1[serverId].chatHistory == reg[serverId].chatHistory + [line];
      (reg1, [Entry(System, prompt)] + reg1[serverId].chatHistory)
    else (reg, [Entry(System, prompt)])
  }

  /** After the model answered: the posted answer joins the kept conversation, and the fact
      store learns from the exchange when facts were used and learning is on. */
  function Speak(reg: Registry, store: Store, cfg: EngineConfig, serverId: int, keeping: bool,
                 facts: seq<Fact>, raw: string, extraction: Option<string>): (r: (Registry, Store))
    requires keeping ==> serverId in reg
    ensures r.0.Keys == reg.Keys && r.1.Keys == store.Keys
    ensures forall k :: k in reg && k != serverId ==> r.0[k] == reg[k]
    ensures !keeping ==> r.0 == reg
    ensures keeping ==> r.0[serverId] == reg[serverId].(chatHistory := reg[serverId].chatHistory
                                                           + [Entry(Assistant, PostProcess(raw, cfg.maxResponseLength))])
    ensures r.1 != store ==> serverId != 0 && facts != [] && cfg.autoLearnFacts
    ensures serverId != 0 && facts != [] && cfg.autoLearnFacts ==> r.1 == ExtractAndUpdateFacts(facts, store, extraction)
  {
    var answer := PostProcess(raw, cfg.maxResponseLength);
    var reg2 := if keeping then AddToChatHistory(reg, serverId, Assistant, answer) else reg;
    assert keeping ==> reg2[serverId].chatHistory == reg[serverId].chatHistory + [Entry(Assistant, answer)];
    var store2 := if serverId != 0 && facts != [] && cfg.autoLearnFacts
                  then ExtractAndUpdateFacts(facts, store, extraction) else store;
    (reg2, store2)
  }

  /** Only the conversation of the server's record changes. */
  lemma GenerateTouchesOnlyHistory(reg: Registry, store: Store, cfg: EngineConfig, message: string,
                                   serverId: int, additional: string, username: string,
                                   withState: bool, w: World)
    requires withState ==> serverId in reg
    ensures var g := GenerateResponse(reg, store, cfg, message, serverId, additional, username, withState, w);
      serverId in reg ==>
        g.registry[serverId] == reg[serverId].(chatHistory := g.registry[serverId].chatHistory)
  {
  }

  /** The model sees the system prompt and then the conversation, ending with the user's
      line; without a kept conversation it sees the system prompt alone. The prompt carries the
      server's unrest when a state is passed (0 otherwise), the facts just retrieved when there
      is a server id, and the summary only when the conversation is kept. */
  lemma GenerateSendsPromptAndConversation(reg: Registry, store: Store, cfg: EngineConfig, message: string,
                                           serverId: int, additional: string, username: string,
                                           withState: bool, w: World)
    requires withState ==> serverId in reg
    ensures var g := GenerateResponse(reg, store, cfg, message, serverId, additional, username, withState, w);
      !QueryRaised(g.answer) ==>
        && |g.sent| >= 1
        && g.sent[0] == Entry(System, SystemPrompt(
             cfg.persona,
             if withState then reg[serverId].unrest else 0,
             w.today,
             if serverId != 0 then ChooseRelevantFacts(w.query, cfg.relevanceThreshold).value else [],
             additional,
             if serverId != 0 && withState then reg[serverId].activeSummary else ""))
        && (serverId != 0 && withState ==>
              g.sent[1..] == reg[serverId].chatHistory + [Entry(User, UserLine(username, message))])
        && (serverId == 0 || !withState ==> |g.sent| == 1)
  {
  }

  /** An answer comes out exactly when the query succeeds and the model replies, and it is the
      reply after post-processing. */
  lemma GenerateAnswersWithTheReply(reg: Registry, store: Store, cfg: EngineConfig, message: string,
                                    serverId: int, additional: string, username: string,
                                    withState: bool, w: World)
    requires withState ==> serverId in reg
    ensures var g := GenerateResponse(reg, store, cfg, message, serverId, additional, username, withState, w);
      && (g.answer.Success? <==> !QueryRaised(g.answer) && w.reply.Some?)
      && (g.answer.Success? ==> g.answer.value == PostProcess(w.reply.value, cfg.maxResponseLength))
      && (g.answer.Failure? && !QueryRaised(g.answer) ==> g.answer.error == ModelFailed)
  {
  }

  /** The user's line stays in the conversation even when the model fails. */
  lemma GenerateKeepsTheQuestion(reg: Registry, store: Store, cfg: EngineConfig, message: string,
                                 serverId: int, additional: string, username: string, w: World)
    requires serverId != 0 && serverId in reg
    ensures var g := GenerateResponse(reg, store, cfg, message, serverId, additional, username, true, w);
      g.answer == Failure(ModelFailed) ==>
        g.registry[serverId].chatHistory == reg[serverId].chatHistory + [Entry(User, UserLine(username, message))]
  {
  }

  /** On success the posted answer follows the user's line in the conversation. */
  lemma GenerateRecordsTheExchange(reg: Registry, store: Store, cfg: EngineConfig, message: string,
                                   serverId: int, additional: string, username: string, w: World)
    requires serverId != 0 && serverId in reg
    ensures var g := GenerateResponse(reg, store, cfg, message, serverId, additional, username, true, w);
      g.answer.Success? ==>
        && w.reply.Some? && g.answer.value == PostProcess(w.reply.value, cfg.maxResponseLength)
        && g.registry[serverId].chatHistory
             == reg[serverId].chatHistory + [Entry(User, UserLine(username, message)), Entry(Assistant, g.answer.value)]
  {
  }

  /** Facts are rewritten only after a successful answer that drew on some facts, with
      learning enabled and a server id; then exactly the learner's updates are applied. */
  lemma GenerateLearnsOnlyWhenEnabled(reg: Registry, store: Store, cfg: EngineConfig, message: string,
                                      serverId: int, additional: string, username: string,
                                      withState: bool, w: World)
    requires withState ==> serverId in reg
    ensures var g := GenerateResponse(reg, store, cfg, message, serverId, additional, username, withState, w);
      && (g.store != store ==> g.answer.Success? && cfg.autoLearnFacts && serverId != 0)
      && (g.answer.Success? && cfg.autoLearnFacts && serverId != 0 ==>
            var facts := ChooseRelevantFacts(w.query, cfg.relevanceThreshold).value;
            g.store == ExtractAndUpdateFacts(facts, store, w.extraction))
  {
  }
}

=== FILE: database.dfy ===
/** The fact store: short documents keyed by string ids. The similarity search itself belongs to
    the vector database; the bot only filters the parallel arrays a query returns, replaces a
    document's text, and seeds the store once with sequential ids. */
module FactStore {
  import opened Wrappers
  import opened Text

  datatype Fact = Fact(id: string, content: string)

  /** The collection's documents by id. */
  type Store = map<string, string>

  /** What a query returns: parallel arrays, one inner list per query text (the bot sends one),
      closest first. */
  datatype QueryResult = QueryResult(
    ids: seq<seq<string>>,
    documents: seq<seq<string>>,
    distances: seq<seq<real>>)

  /** Python's `IndexError` from reading an array the result does not have. */
  datatype QueryError = IndexError

  /** The number of results the bot asks the query for. */
  const ResultCount: nat := 3

  /** Position `i` of the arrays is kept: its distance is below the threshold and it has an id. */
  predicate Qualifies(ids: seq<string>, dists: seq<real>, threshold: real, i: int) {
    0 <= i < |dists| && dists[i] < threshold && i < |ids|
  }

  /** The positions from `i` on that the filter keeps, in ascending order: exactly the
      qualifying ones, each once. */
  function Qualifying(ids: seq<string>, dists: seq<real>, threshold: real, i: nat): (r: seq<nat>)
    requires i <= |dists|
    ensures forall k :: 0 <= k < |r| ==> i <= r[k] && Qualifies(ids, dists, threshold, r[k])
    ensures |r| <= |dists| - i
    ensures |r| <= if |ids| > i then |ids| - i else 0
    decreases |dists| - i
  {
    if i == |dists| then []
    else if Qualifies(ids, dists, threshold, i) then [i] + Qualifying(ids, dists, threshold, i + 1)
    else Qualifying(ids, dists, threshold, i + 1)
  }

  /** Every position in `q` has a document. */
  predicate DocumentsCover(docs: Option<seq<string>>, q: seq<nat>) {
    forall k :: 0 <= k < |q| ==> docs.Some? && q[k] < |docs.value|
  }

  /** `facts` pairs, in order, the id and the document of every position in `q`. */
  predicate PairsAt(facts: seq<Fact>, ids: seq<string>, docs: Option<seq<string>>, q: seq<nat>) {
    && |facts| == |q|
    && forall k :: 0 <= k < |q| ==>
         q[k] < |ids| && docs.Some? && q[k] < |docs.value| && facts[k] == Fact(ids[q[k]], docs.value[q[k]])
  }

  predicate StrictlyAscending(r: seq<nat>) {
    forall k, l :: 0 <= k < l < |r| ==> r[k] < r[l]
  }

  /** The kept positions are strictly ascending: the query's order is preserved. */
  lemma {:induction false} QualifyingAscending(ids: seq<string>, dists: seq<real>, threshold: real, i: nat)
    requires i <= |dists|
    ensures StrictlyAscending(Qualifying(ids, dists, threshold, i))
    decreases |dists| - i
  {
    if i < |dists| {
      QualifyingAscending(ids, dists, threshold, i + 1);
      var r := Qualifying(ids, dists, threshold, i);
      var r' := Qualifying(ids, dists, threshold, i + 1);
      if Qualifies(ids, dists, threshold, i) {
        assert r == [i] + r';
        forall k, l | 0 <= k < l < |r|
          ensures r[k] < r[l]
        {
          assert r[l] == r'[l - 1];
          if k > 0 {
            assert r[k] == r'[k - 1];
          }
        }
      }
    }
  }

  /** No qualifying position is missed. */
  lemma {:induction false} QualifyingComplete(ids: seq<string>, dists: seq<real>, threshold: real, i: nat, j: nat)
    requires i <= j && Qualifies(ids, dists, threshold, j)
    ensures j in Qualifying(ids, dists, threshold, i)
    decreases j - i
  {
    if i < j {
      QualifyingComplete(ids, dists, threshold, i + 1, j);
    }
  }

  /** The loop of `choose_relevant_facts` from position `i` on. */
  function Scan(ids: seq<string>, docs: Option<seq<string>>, dists: seq<real>, threshold: real, i: nat)
    : Result<seq<Fact>, QueryError>
    requires i <= |dists|
    decreases |dists| - i
  {
    if i == |dists| then Success([])
    else if Qualifies(ids, dists, threshold, i) then
      if docs.None? || i >= |docs.value| then Failure(IndexError)
      else
        match Scan(ids, docs, dists, threshold, i + 1)
        case Success(rest) => Success([Fact(ids[i], docs.value[i])] + rest)
        case Failure(e) => Failure(e)
    else Scan(ids, docs, dists, threshold, i + 1)
  }

  /** The loop raises exactly when a qualifying position has no document. */
  lemma {:induction false} ScanFailsOnMissingDocument(ids: seq<string>, docs: Option<seq<string>>, dists: seq<real>, threshold: real, i: nat)
    requires i <= |dists|
    ensures Scan(ids, docs, dists, threshold, i).Success? <==> DocumentsCover(docs, Qualifying(ids, dists, threshold, i))
    decreases |dists| - i
  {
    if i < |dists| {
      ScanFailsOnMissingDocument(ids, docs, dists, threshold, i + 1);
      if Qualifies(ids, dists, threshold, i) {
        var q := Qualifying(ids, dists, threshold, i);
        var q' := Qualifying(ids, dists, threshold, i + 1);
        assert q == [i] + q';
        if docs.None? || i >= |docs.value| {
          assert q[0] == i;
        } else {
          assert DocumentsCover(docs, q') ==> DocumentsCover(docs, q) by {
            assert forall k :: 1 <= k < |q| ==> q[k] == q'[k - 1];
          }
          assert DocumentsCover(docs, q) ==> DocumentsCover(docs, q') by {
            assert forall k :: 0 <= k < |q'| ==> q'[k] == q[k + 1];
          }
        }
      }
    }
  }

  /** When the loop succeeds it has paired the id and document of every qualifying position,
      in order. */
  lemma {:induction false} ScanPairsQualifying(ids: seq<string>, docs: Option<seq<string>>, dists: seq<real>, threshold: real, i: nat)
    requires i <= |dists|
    requires Scan(ids, docs, dists, threshold, i).Success?
    ensures PairsAt(Scan(ids, docs, dists, threshold, i).value, ids, docs, Qualifying(ids, dists, threshold, i))
    decreases |dists| - i
  {
    if i < |dists| {
      var tail := Scan(ids, docs, dists, threshold, i + 1);
      assert tail.Success?;
      ScanPairsQualifying(ids, docs, dists, threshold, i + 1);
      if Qualifies(ids, dists, threshold, i) {
        var q := Qualifying(ids, dists, threshold, i);
        var q' := Qualifying(ids, dists, threshold, i + 1);
        assert q == [i] + q';
        var r := [Fact(ids[i], docs.value[i])] + tail.value;
        assert Scan(ids, docs, dists, threshold, i).value == r;
        assert forall k :: 1 <= k < |q| ==> q[k] == q'[k - 1] && r[k] == tail.value[k - 1];
      }
    }
  }

  /** `choose_relevant_facts`: nothing when the query returned no ids; otherwise the
      (id, document) pairs of the positions whose distance is strictly below the threshold, in
      the query's order, never more than there are ids; it raises exactly when there are ids but
      no distance array, or when a kept position has no document. */
  function ChooseRelevantFacts(q: QueryResult, threshold: real): (r: Result<seq<Fact>, QueryError>)
    ensures |q.ids| == 0 || |q.ids[0]| == 0 ==> r == Success([])
    ensures r.Success? && |q.ids| > 0 && |q.ids[0]| > 0 ==>
      && |q.distances| > 0
      && var idx := Qualifying(q.ids[0], q.distances[0], threshold, 0);
      && |r.value| == |idx|
      && forall k :: 0 <= k < |idx| ==>
           && q.distances[0][idx[k]] < threshold
           && |q.documents| > 0 && idx[k] < |q.documents[0]|
           && r.value[k] == Fact(q.ids[0][idx[k]], q.documents[0][idx[k]])
    ensures r.Success? && |q.ids| > 0 ==> |r.value| <= |q.ids[0]|
    ensures r.Failure? <==>
      && |q.ids| > 0 && |q.ids[0]| > 0
      && (|q.distances| == 0 ||
          !DocumentsCover(if |q.documents| > 0 then Some(q.documents[0]) else None,
                          Qualifying(q.ids[0], q.distances[0], threshold, 0)))
  {
    if |q.ids| == 0 || |q.ids[0]| == 0 then Success([])
    else if |q.distances| == 0 then Failure(IndexError)
    else
      var docs := if |q.documents| > 0 then Some(q.documents[0]) else None;
      ScanFailsOnMissingDocument(q.ids[0], docs, q.distances[0], threshold, 0);
      var r := Scan(q.ids[0], docs, q.distances[0], threshold, 0);
      if r.Success? then
        ScanPairsQualifying(q.ids[0], docs, q.distances[0], threshold, 0);
        r
      else r
  }

  /** A query that honours the requested result count yields at most three facts. */
  lemma AtMostThreeFacts(q: QueryResult, threshold: real)
    requires |q.ids| > 0 && |q.ids[0]| <= ResultCount
    requires ChooseRelevantFacts(q, threshold).Success?
    ensures |ChooseRelevantFacts(q, threshold).value| <= 3
  {
  }

  /** A well-formed result, with every array as long as the id array, never fails. */
  lemma WellFormedQuerySucceeds(q: QueryResult, threshold: real)
    requires |q.ids| > 0 && |q.documents| > 0 && |q.distances| > 0
    requires |q.documents[0]| == |q.ids[0]| == |q.distances[0]|
    ensures ChooseRelevantFacts(q, threshold).Success?
  {
    ScanFailsOnMissingDocument(q.ids[0], Some(q.documents[0]), q.distances[0], threshold, 0);
  }

  /** Kept facts come out closest first when the query returned them closest first. */
  lemma KeptFactsClosestFirst(ids: seq<string>, dists: seq<real>, threshold: real)
    requires forall a, b :: 0 <= a < b < |dists| ==> dists[a] <= dists[b]
    ensures var idx := Qualifying(ids, dists, threshold, 0);
      forall k, l :: 0 <= k < l < |idx| ==> dists[idx[k]] <= dists[idx[l]]
  {
    QualifyingAscending(ids, dists, threshold, 0);
  }

  /** `update_fact`: the document of exactly the given id is replaced. The vector database
      ignores an update of an id it does not hold. */
  function UpdateFact(store: Store, id: string, content: string): (r: Store)
    ensures r.Keys == store.Keys
    ensures id in store ==> r[id] == content
    ensures forall k :: k in store && k != id ==> r[k] == store[k]
  {
    if id in store then store[id := content] else store
  }

  /** The ids `setup_initial_facts` gives `n` documents: "1", "2", ..., "n". */
  function SeedIds(n: nat): (r: seq<string>)
    ensures |r| == n
    ensures forall i :: 0 <= i < n ==> Canonical(r[i]) && DecimalValue(r[i]) == i + 1
    ensures forall i, j :: 0 <= i < j < n ==> r[i] != r[j]
  {
    var r := seq(n, i requires 0 <= i < n => NatToDecimal(i + 1));
    forall i | 0 <= i < n ensures DecimalValue(r[i]) == i + 1 {
      DecimalRoundTrip(i + 1);
    }
    r
  }

  /** `setup_initial_facts`: the documents, upserted into an empty collection under the ids
      "1" to "n" in list order. */
  function SetupInitialFacts(docs: seq<string>): (r: Store)
    ensures r.Keys == set i | 0 <= i < |docs| :: SeedIds(|docs|)[i]
    ensures forall i :: 0 <= i < |docs| ==> SeedIds(|docs|)[i] in r && r[SeedIds(|docs|)[i]] == docs[i]
  {
    var ids := SeedIds(|docs|);
    map i | 0 <= i < |docs| :: ids[i] := docs[i]
  }

  /** `initialize_database`: an empty collection is seeded, a non-empty one is kept as it is. */
  function InitializeFacts(store: Store, docs: seq<string>): (r: Store)
    ensures |store| > 0 ==> r == store
    ensures |store| == 0 ==> r.Keys == set i | 0 <= i < |docs| :: SeedIds(|docs|)[i]
    ensures |store| == 0 ==> forall i :: 0 <= i < |docs| ==> SeedIds(|docs|)[i] in r && r[SeedIds(|docs|)[i]] == docs[i]
  {
    if |store| == 0 then SetupInitialFacts(docs) else store
  }
}

=== FILE: dates.dfy ===
/** Calendar dates as the bot prints them: `strftime("%Y-%m-%d")` for "today" and the same day
    and month in the year 1462 for the king's own calendar. The wall clock itself is an input. */
module Dates {
  import opened Text

  datatype Date = Date(year: nat, month: nat, day: nat) {
    /** A date the clock can deliver: a four-digit year, a month and a day of month. */
    predicate Valid() {
      1000 <= year <= 9999 && 1 <= month <= 12 && 1 <= day <= 31
    }
  }

  type CalendarDate = d: Date | d.Valid() witness Date(1462, 1, 1)

  /** The year the king lives in. */
  const KingsYear: nat := 1462

  /** `strftime("%Y-%m-%d")`: four year digits, two month digits, two day digits. */
  function Format(d: CalendarDate): (r: string)
    ensures |r| == 10 && r[4] == '-' && r[7] == '-'
    ensures AllDigits(r[..4]) && AllDigits(r[5..7]) && AllDigits(r[8..])
  {
    ZeroPadded(d.year, 4) + "-" + ZeroPadded(d.month, 2) + "-" + ZeroPadded(d.day, 2)
  }

  /** The three numbers can be read back from a formatted date. */
  lemma FormatReadsBack(d: CalendarDate)
    ensures DecimalValue(Format(d)[..4]) == d.year
    ensures DecimalValue(Format(d)[5..7]) == d.month
    ensures DecimalValue(Format(d)[8..]) == d.day
  {
    var r := Format(d);
    assert r[..4] == ZeroPadded(d.year, 4);
    assert r[5..7] == ZeroPadded(d.month, 2);
    assert r[8..] == ZeroPadded(d.day, 2);
    ZeroPaddedRoundTrip(d.year, 4);
    ZeroPaddedRoundTrip(d.month, 2);
    ZeroPaddedRoundTrip(d.day, 2);
  }

  /** Two dates print the same exactly when they are the same date, so comparing the stored
      date string with today's string is comparing days. */
  lemma FormatInjective(a: CalendarDate, b: CalendarDate)
    ensures Format(a) == Format(b) <==> a == b
  {
    if Format(a) == Format(b) {
      FormatReadsBack(a);
      FormatReadsBack(b);
    }
  }

  /** `old_times_today()`: today's month and day in the year 1462. */
  function OldTimesToday(today: CalendarDate): (r: string)
    ensures |r| == 10 && r[..5] == "1462-" && r[5..] == Format(today)[5..]
    ensures r == Format(Date(KingsYear, today.month, today.day))
  {
    assert ZeroPadded(KingsYear, 4) == "1462";
    "1462-" + ZeroPadded(today.month, 2) + "-" + ZeroPadded(today.day, 2)
  }
}

=== FILE: fact_learner.dfy ===
/** The fact learner of `chat_engine.py`: after a reply that used retrieved facts, the language
    model is asked which facts to rewrite, and its answer is read line by line as
    `ID: <id>` / `UPDATED_FACT: <text>` pairs (or the sentinel `NO_UPDATES`); each complete pair
    rewrites one document of the fact store. The model's answer is an input. */
module FactLearner {
  import opened Wrappers
  import opened Text
  import opened FactStore

  /** The sentinel answer meaning "nothing to change". */
  const NoUpdates: string := "NO_UPDATES"
  const IdPrefix: string := "ID:"
  const FactPrefix: string := "UPDATED_FACT:"

  datatype FactUpdate = FactUpdate(id: string, content: string)

  /** How the loop reads one line, once stripped: an id line, a fact line, or anything else. */
  datatype Line = IdLine(id: string) | FactLine(fact: string) | OtherLine

  /** The branches of the loop: the prefix is looked for on the stripped line, and every occurrence
      of it (not just the leading one) is removed before stripping again. */
  function Classify(raw: string): Line {
    var line := Strip(raw);
    if StartsWith(line, IdPrefix) then IdLine(Strip(ReplaceAll(line, IdPrefix, "")))
    else if StartsWith(line, FactPrefix) then FactLine(Strip(ReplaceAll(line, FactPrefix, "")))
    else OtherLine
  }

  /** A pending pair is written out only when both its id and its text are non-empty. */
  function Flush(id: string, fact: string): seq<FactUpdate> {
    if id != "" && fact != "" then [FactUpdate(id, fact)] else []
  }

  /** The `for line in lines` loop with its `current_id`/`current_fact` variables (an absent
      value and the empty string behave alike there), including the final flush. */
  function Fold(cls: seq<Line>, id: string, fact: string): seq<FactUpdate>
    decreases |cls|
  {
    if cls == [] then Flush(id, fact)
    else match cls[0]
      case IdLine(n) => Flush(id, fact) + Fold(cls[1..], n, "")
      case FactLine(f) => Fold(cls[1..], id, f)
      case OtherLine => Fold(cls[1..], id, fact)
  }

  function ClassifyAll(lines: seq<string>): seq<Line>
    decreases |lines|
  {
    if lines == [] then [] else [Classify(lines[0])] + ClassifyAll(lines[1..])
  }

  /** `extract_and_update_facts`' reading of the model's answer: none for the sentinel,
      otherwise one update per complete pair, each with a non-empty id and text, never more
      than there are id lines, and exactly the pairs the block reading `Expected` finds. */
  function ParseUpdates(answer: string): (r: seq<FactUpdate>)
    ensures Strip(answer) == NoUpdates ==> r == []
    ensures Strip(answer) != NoUpdates ==> r == Expected(ClassifyAll(Split(Strip(answer), '\n')))
    ensures forall k :: 0 <= k < |r| ==> r[k].id != "" && r[k].content != ""
    ensures |r| <= CountIds(ClassifyAll(Split(Strip(answer), '\n')))
  {
    var text := Strip(answer);
    var cls := ClassifyAll(Split(text, '\n'));
    FoldIsBlockReading(cls, "", "");
    ExpectedIsWellFormed(cls);
    if text == NoUpdates then [] else Fold(cls, "", "")
  }

  // ---------------------------------------------------------------------------------------
  // An independent reading of the same answer, block by block

  /** The position of the first id line, or the length when there is none. */
  function FirstId(cls: seq<Line>): (k: nat)
    ensures k <= |cls|
    ensures forall j :: 0 <= j < k ==> !cls[j].IdLine?
    ensures k < |cls| ==> cls[k].IdLine?
    decreases |cls|
  {
    if cls == [] then 0
    else if cls[0].IdLine? then 0
    else 1 + FirstId(cls[1..])
  }

  /** The text of the last fact line, or `dflt` when there is none. */
  function LastFact(cls: seq<Line>, dflt: string): string
    decreases |cls|
  {
    if cls == [] then dflt
    else if cls[|cls| - 1].FactLine? then cls[|cls| - 1].fact
    else LastFact(cls[..|cls| - 1], dflt)
  }

  function CountIds(cls: seq<Line>): nat
    decreases |cls|
  {
    if cls == [] then 0 else (if cls[0].IdLine? then 1 else 0) + CountIds(cls[1..])
  }

  /** Starting at an id line: the block runs to the next id line, and yields that id with the
      last fact text of the block, when both are non-empty. */
  function Blocks(cls: seq<Line>): (r: seq<FactUpdate>)
    requires |cls| > 0 && cls[0].IdLine?
    ensures |r| <= CountIds(cls)
    ensures forall k :: 0 <= k < |r| ==> r[k].id != "" && r[k].content != ""
    decreases |cls|
  {
    var e := 1 + FirstId(cls[1..]);
    var head := Flush(cls[0].id, LastFact(cls[1..e], ""));
    CountIdsSplit(cls, e);
    CountIdsSplit(cls, 1);
    assert CountIds(cls[1..e]) == 0 by { NoIdsCountZero(cls[1..e]); }
    assert cls[1..][..e - 1] == cls[1..e];
    if e == |cls| then head
    else head + Blocks(cls[e..])
  }

  /** The block reading: lines before the first id line are dropped, then block by block. */
  function Expected(cls: seq<Line>): seq<FactUpdate> {
    var k := FirstId(cls);
    if k == |cls| then [] else Blocks(cls[k..])
  }

  lemma {:induction false} NoIdsCountZero(cls: seq<Line>)
    requires forall j :: 0 <= j < |cls| ==> !cls[j].IdLine?
    ensures CountIds(cls) == 0
    decreases |cls|
  {
    if cls != [] {
      NoIdsCountZero(cls[1..]);
    }
  }

  lemma {:induction false} CountIdsSplit(cls: seq<Line>, e: nat)
    requires e <= |cls|
    ensures CountIds(cls) == CountIds(cls[..e]) + CountIds(cls[e..])
    decreases |cls|
  {
    if e > 0 {
      CountIdsSplit(cls[1..], e - 1);
      assert cls[1..][..e - 1] == cls[..e][1..];
      assert cls[1..][e - 1..] == cls[e..];
    }
  }

  /** The block reading yields well-formed updates, at most one per id line. */
  lemma ExpectedIsWellFormed(cls: seq<Line>)
    ensures |Expected(cls)| <= CountIds(cls)
    ensures forall k :: 0 <= k < |Expected(cls)| ==> Expected(cls)[k].id != "" && Expected(cls)[k].content != ""
  {
  }

  /** A line in front of the block being read that is not an id line either extends the
      pending fact (a fact line) or changes nothing. */
  lemma {:induction false} LastFactFront(x: Line, rest: seq<Line>, dflt: string)
    ensures LastFact([x] + rest, dflt) == LastFact(rest, if x.FactLine? then x.fact else dflt)
    decreases |rest|
  {
    var s := [x] + rest;
    if rest != [] {
      assert s[..|s| - 1] == [x] + rest[..|rest| - 1];
      LastFactFront(x, rest[..|rest| - 1], dflt);
    }
  }

  /** The block reading seen one line at a time: an id line opens a block holding the lines
      up to the next id line; any other line in front is skipped. */
  lemma ExpectedFront(cls: seq<Line>)
    requires cls != []
    ensures cls[0].IdLine? ==>
      Expected(cls) == Flush(cls[0].id, LastFact(cls[1..][..FirstId(cls[1..])], "")) + Expected(cls[1..])
    ensures !cls[0].IdLine? ==> FirstId(cls) == 1 + FirstId(cls[1..]) && Expected(cls) == Expected(cls[1..])
  {
    var rest := cls[1..];
    var k := FirstId(rest);
    assert rest[k..] == cls[1 + k..];
    if cls[0].IdLine? {
      assert cls[0..] == cls;
      assert rest[..k] == cls[1..1 + k];
    }
  }

  /** The loop and the block reading agree: from any pending pair, the loop yields the pending
      pair completed by the lines before the next id line, then the blocks. */
  lemma {:induction false} FoldIsBlockReading(cls: seq<Line>, id: string, fact: string)
    ensures Fold(cls, id, fact) == Flush(id, LastFact(cls[..FirstId(cls)], fact)) + Expected(cls)
    decreases |cls|
  {
    if cls != [] {
      match cls[0]
      case IdLine(n) =>
        FoldIsBlockReading(cls[1..], n, "");
        FoldStepAtId(cls, id, fact);
      case FactLine(f) =>
        FoldIsBlockReading(cls[1..], id, f);
        FoldStepElsewhere(cls, id, fact, f);
      case OtherLine =>
        FoldIsBlockReading(cls[1..], id, fact);
        FoldStepElsewhere(cls, id, fact, fact);
    }
  }

  /** An id line flushes the pending pair and opens the first block. */
  lemma FoldStepAtId(cls: seq<Line>, id: string, fact: string)
    requires cls != [] && cls[0].IdLine?
    requires var rest := cls[1..];
      Fold(rest, cls[0].id, "") == Flush(cls[0].id, LastFact(rest[..FirstId(rest)], "")) + Expected(rest)
    ensures Fold(cls, id, fact) == Flush(id, LastFact(cls[..FirstId(cls)], fact)) + Expected(cls)
  {
    ExpectedFront(cls);
    assert cls[..FirstId(cls)] == [];
  }

  /** Any other line only updates the pending fact, as the last fact line before the next id
      line does in the block reading. */
  lemma FoldStepElsewhere(cls: seq<Line>, id: string, fact: string, next: string)
    requires cls != [] && !cls[0].IdLine?
    requires next == if cls[0].FactLine? then cls[0].fact else fact
    requires var rest := cls[1..];
      Fold(rest, id, next) == Flush(id, LastFact(rest[..FirstId(rest)], next)) + Expected(rest)
    ensures Fold(cls, id, fact) == Flush(id, LastFact(cls[..FirstId(cls)], fact)) + Expected(cls)
  {
    assert Fold(cls, id, fact) == Fold(cls[1..], id, next);
    PendingFront(cls, fact, next);
    ExpectedFront(cls);
  }

  /** Before the first id line, a line other than an id line only moves the pending fact. */
  lemma PendingFront(cls: seq<Line>, fact: string, next: string)
    requires cls != [] && !cls[0].IdLine?
    requires next == if cls[0].FactLine? then cls[0].fact else fact
    ensures LastFact(cls[..FirstId(cls)], fact) == LastFact(cls[1..][..FirstId(cls[1..])], next)
  {
    var rest := cls[1..];
    var k := FirstId(rest);
    assert FirstId(cls) == 1 + k;
    assert cls[..1 + k] == [cls[0]] + rest[..k];
    LastFactFront(cls[0], rest[..k], fact);
  }

  /** Fact lines before the first id line are dropped. */
  lemma PreambleIsDropped(pre: seq<Line>, rest: seq<Line>)
    requires forall j :: 0 <= j < |pre| ==> !pre[j].IdLine?
    ensures Expected(pre + rest) == Expected(rest)
  {
    var cls := pre + rest;
    FirstIdSkips(pre, rest);
    var k := FirstId(rest);
    assert |cls| == |pre| + |rest|;
    if k < |rest| {
      assert cls[|pre| + k..] == rest[k..];
    }
  }

  lemma {:induction false} FirstIdSkips(pre: seq<Line>, rest: seq<Line>)
    requires forall j :: 0 <= j < |pre| ==> !pre[j].IdLine?
    ensures FirstId(pre + rest) == |pre| + FirstId(rest)
    decreases |pre|
  {
    if pre != [] {
      var cls := pre + rest;
      assert cls[0] == pre[0];
      assert cls[1..] == pre[1..] + rest;
      FirstIdSkips(pre[1..], rest);
    } else {
      assert pre + rest == rest;
    }
  }

  /** Within a block, the last fact line wins: it fixes the text whatever came before it. */
  lemma {:induction false} LastFactLineWins(cls: seq<Line>, k: nat, dflt: string)
    requires k < |cls| && cls[k].FactLine?
    requires forall j :: k < j < |cls| ==> !cls[j].FactLine?
    ensures LastFact(cls, dflt) == cls[k].fact
    decreases |cls|
  {
    if k < |cls| - 1 {
      LastFactLineWins(cls[..|cls| - 1], k, dflt);
    }
  }

  /** One id line followed by one fact line, both with stripped, prefix-free, single-line
      contents, gives exactly that one update. */
  lemma OnePairOneUpdate(id: string, fact: string)
    requires id != [] && fact != []
    requires Strip(id) == id && Strip(fact) == fact
    requires !Contains(id, IdPrefix) && !Contains(fact, FactPrefix)
    ensures var r := Expected([IdLine(id), FactLine(fact)]); r == [FactUpdate(id, fact)]
  {
  }

  /** Removing the prefix from `prefix + " " + v` leaves `" " + v` when `v` does not hold it. */
  lemma ReplaceAfterPrefix(prefix: string, v: string)
    requires |prefix| > 0 && !IsSpace(prefix[0]) && !Contains(v, prefix)
    ensures ReplaceAll(prefix + " " + v, prefix, "") == [' '] + v
  {
    var tail := [' '] + v;
    assert prefix + " " + v == prefix + tail;
    ReplaceLeading(prefix, tail);
    ReplaceAfterSpace(prefix, v);
  }

  /** A leading occurrence of the pattern is removed and the scan goes on after it. */
  lemma ReplaceLeading(prefix: string, tail: string)
    requires |prefix| > 0
    ensures ReplaceAll(prefix + tail, prefix, "") == ReplaceAll(tail, prefix, "")
  {
  }

  /** A space that cannot start the pattern is kept, and a pattern-free rest is kept whole. */
  lemma ReplaceAfterSpace(prefix: string, v: string)
    requires |prefix| > 0 && !IsSpace(prefix[0]) && !Contains(v, prefix)
    ensures ReplaceAll([' '] + v, prefix, "") == [' '] + v
  {
    var tail := [' '] + v;
    ReplaceAbsent(v, prefix, "");
    if |tail| >= |prefix| {
      assert tail[..|prefix|][0] == ' ';
      assert tail[1..] == v;
    }
  }

  /** `prefix + " " + v` has no whitespace at its ends when `prefix` and `v` have none. */
  lemma SolidLine(prefix: string, v: string)
    requires |prefix| > 0 && !IsSpace(prefix[0]) && v != [] && !IsSpace(v[|v| - 1])
    ensures Strip(prefix + " " + v) == prefix + " " + v
  {
  }

  /** A line made of a prefix, one space and a stripped, prefix-free value is read as that
      value. */
  lemma PrefixedLineValue(prefix: string, v: string)
    requires |prefix| > 0 && !IsSpace(prefix[0]) && v != [] && Strip(v) == v && !Contains(v, prefix)
    ensures var line := prefix + " " + v;
      && Strip(line) == line && StartsWith(line, prefix)
      && Strip(ReplaceAll(line, prefix, "")) == v
  {
    assert !IsSpace(v[|v| - 1]);
    SolidLine(prefix, v);
    StartsWithConcat(prefix, " ", v);
    ReplaceAfterPrefix(prefix, v);
    StripSkipsSpace(' ', v);
  }

  /** The two lines of a one-pair answer are read as one id line and one fact line. */
  lemma OnePairLines(id: string, fact: string)
    requires id != [] && fact != []
    requires Strip(id) == id && Strip(fact) == fact
    requires '\n' !in id && '\n' !in fact
    requires !Contains(id, IdPrefix) && !Contains(fact, FactPrefix)
    ensures ClassifyAll(Split((IdPrefix + " " + id) + "\n" + (FactPrefix + " " + fact), '\n'))
      == [IdLine(id), FactLine(fact)]
  {
    SingleLine(IdPrefix, id);
    SingleLine(FactPrefix, fact);
    IdLineRead(id);
    FactLineRead(fact);
    TwoLines(IdPrefix + " " + id, FactPrefix + " " + fact);
  }

  lemma SingleLine(prefix: string, v: string)
    requires '\n' !in prefix && '\n' !in v
    ensures '\n' !in prefix + " " + v
  {
  }

  /** Two single lines joined by a newline are read line by line. */
  lemma TwoLines(a: string, b: string)
    requires '\n' !in a && '\n' !in b
    ensures ClassifyAll(Split(a + "\n" + b, '\n')) == [Classify(a), Classify(b)]
  {
    OnePairSplits(a, b);
    ClassifyPair(a, b);
  }

  lemma ClassifyPair(a: string, b: string)
    ensures ClassifyAll([a, b]) == [Classify(a), Classify(b)]
  {
    assert [a, b][1..] == [b];
    assert [b][1..] == [];
    assert ClassifyAll([b]) == [Classify(b)] + ClassifyAll([]);
    assert ClassifyAll([a, b]) == [Classify(a)] + ClassifyAll([b]);
  }

  /** An answer that starts with an id line and ends on a solid character is already
      stripped, and is not the sentinel. */
  lemma OnePairSolid(idLine: string, factLine: string)
    requires StartsWith(idLine, IdPrefix)
    requires factLine != [] && !IsSpace(factLine[|factLine| - 1])
    ensures var answer := idLine + "\n" + factLine; Strip(answer) == answer && answer != NoUpdates
  {
  }

  lemma OnePairSplits(idLine: string, factLine: string)
    requires '\n' !in idLine && '\n' !in factLine
    ensures Split(idLine + "\n" + factLine, '\n') == [idLine, factLine]
  {
    assert idLine + "\n" + factLine == Join([idLine, factLine], "\n");
    SplitJoin([idLine, factLine], '\n');
  }

  lemma IdLineRead(id: string)
    requires id != [] && Strip(id) == id && !Contains(id, IdPrefix)
    ensures Classify(IdPrefix + " " + id) == IdLine(id)
  {
    PrefixedLineValue(IdPrefix, id);
  }

  lemma FactLineRead(fact: string)
    requires fact != [] && Strip(fact) == fact && !Contains(fact, FactPrefix)
    ensures Classify(FactPrefix + " " + fact) == FactLine(fact)
  {
    var line := FactPrefix + " " + fact;
    PrefixedLineValue(FactPrefix, fact);
    var stripped := Strip(line);
    assert stripped == line;
    assert stripped[0] == 'U';
    assert !(IdPrefix <= stripped) by {
      assert IdPrefix[0] == 'I';
    }
    assert FactPrefix <= stripped;
    assert Strip(ReplaceAll(stripped, FactPrefix, "")) == fact;
  }

  /** The well-formed answer of one pair, `ID: <id>` and `UPDATED_FACT: <text>` on two lines,
      gives exactly that one update, with the id and text as written. */
  lemma OnePairAnswer(id: string, fact: string)
    requires id != [] && fact != []
    requires Strip(id) == id && Strip(fact) == fact
    requires '\n' !in id && '\n' !in fact
    requires !Contains(id, IdPrefix) && !Contains(fact, FactPrefix)
    ensures ParseUpdates((IdPrefix + " " + id) + "\n" + (FactPrefix + " " + fact)) == [FactUpdate(id, fact)]
  {
    var idLine := IdPrefix + " " + id;
    var factLine := FactPrefix + " " + fact;
    StartsWithConcat(IdPrefix, " ", id);
    assert !IsSpace(fact[|fact| - 1]);
    assert factLine[|factLine| - 1] == fact[|fact| - 1];
    OnePairSolid(idLine, factLine);
    OnePairLines(id, fact);
    OnePairOneUpdate(id, fact);
  }

  // ---------------------------------------------------------------------------------------
  // Applying the updates

  /** The `update_fact` calls, in order. */
  function ApplyUpdates(store: Store, us: seq<FactUpdate>): (r: Store)
    ensures r.Keys == store.Keys
    ensures forall id :: id in store && (forall k :: 0 <= k < |us| ==> us[k].id != id) ==> r[id] == store[id]
    decreases |us|
  {
    if us == [] then store
    else ApplyUpdates(UpdateFact(store, us[0].id, us[0].content), us[1..])
  }

  /** A document ends with the text of the last update naming it. */
  lemma {:induction false} LastUpdateWins(store: Store, us: seq<FactUpdate>, k: nat)
    requires k < |us| && us[k].id in store
    requires forall j :: k < j < |us| ==> us[j].id != us[k].id
    ensures ApplyUpdates(store, us)[us[k].id] == us[k].content
    decreases |us|
  {
    var next := UpdateFact(store, us[0].id, us[0].content);
    if k == 0 {
      assert forall j :: 0 <= j < |us| - 1 ==> us[1..][j] == us[j + 1];
    } else {
      LastUpdateWins(next, us[1..], k - 1);
    }
  }

  /** `extract_and_update_facts`: nothing without referenced facts; a failed model call is
      swallowed and changes nothing; the sentinel changes nothing; otherwise the parsed
      updates are applied. It never fails. */
  function ExtractAndUpdateFacts(referenced: seq<Fact>, store: Store, answer: Option<string>): (r: Store)
    ensures r.Keys == store.Keys
    ensures referenced == [] || answer.None? ==> r == store
    ensures answer.Some? && Strip(answer.value) == NoUpdates ==> r == store
    ensures referenced != [] && answer.Some? ==> r == ApplyUpdates(store, ParseUpdates(answer.value))
  {
    if referenced == [] then store
    else match answer
      case None => store
      case Some(text) => ApplyUpdates(store, ParseUpdates(text))
  }
}

=== FILE: gate_properties.dfy ===
/** What the handler promises over a single message and over a run of messages: the king
    answers the day's question once, says nothing before it, spends at most one unit of quota
    per message, never calms down, and once dead or past the quota is silent for good. */
module GateProperties {
  import opened Wrappers
  import opened Text
  import opened Dates
  import opened ServerManager
  import opened FactStore
  import opened ChatEngine
  import opened MessageHandlers

  /** A message as it arrives: with its random draw and the outside world at that moment. */
  datatype Event = Event(msg: Message, draw: int, w: World)

  /** Something the king said, and where. */
  datatype Post = Post(guildId: int, text: string)

  /** One message: the registry and fact store after it, and what it made the king post. */
  function Step(reg: Registry, store: Store, cfg: BotConfig, e: Event): (r: (Registry, Store, seq<Post>))
    ensures reg.Keys <= r.0.Keys && r.1.Keys == store.Keys
    ensures |r.2| <= 1
  {
    var o := HandleMessage(reg, store, e.msg, cfg, e.draw, e.w);
    (o.registry, o.store, if o.posted.Some? then [Post(e.msg.guildId, o.posted.value)] else [])
  }

  /** The registry and fact store after a run of messages, and everything posted on the way. */
  function Run(reg: Registry, store: Store, cfg: BotConfig, events: seq<Event>): (r: (Registry, Store, seq<Post>))
    ensures reg.Keys <= r.0.Keys && r.1.Keys == store.Keys
    ensures |r.2| <= |events|
    decreases |events|
  {
    if events == [] then (reg, store, [])
    else
      var first := Step(reg, store, cfg, events[0]);
      var rest := Run(first.0, first.1, cfg, events[1..]);
      (rest.0, rest.1, first.2 + rest.2)
  }

  /** Whatever is posted is the model's reply after post-processing, in an answering mode. */
  lemma PostsAreProcessedReplies(reg: Registry, store: Store, msg: Message, cfg: BotConfig, draw: int, w: World)
    ensures var o := HandleMessage(reg, store, msg, cfg, draw, w);
      o.posted.Some? ==>
        && Answers(o.mode) && w.reply.Some?
        && o.posted.value == PostProcess(w.reply.value, cfg.engine.maxResponseLength)
  {
  }

  /** The conversation after an answering mode: a new day starts from an empty one, any other
      answer continues the old one; the user's line goes in even if the model fails, the
      answer follows when posted, and a failing query writes nothing. */
  lemma AnswersAreRecorded(reg: Registry, store: Store, msg: Message, cfg: BotConfig, draw: int, w: World)
    requires msg.guildId != 0
    ensures var o := HandleMessage(reg, store, msg, cfg, draw, w);
      Answers(o.mode) ==>
        var id := msg.guildId;
        var base := if o.mode == QotdAnswer then [] else GetServerState(reg, id).1.chatHistory;
        var line := Entry(User, UserLine(SpeakerFor(o.mode, msg), MessageFor(o.mode, msg)));
        var history := o.registry[id].chatHistory;
        && (o.posted.Some? ==> history == base + [line, Entry(Assistant, o.posted.value)])
        && (o.posted.None? ==> history == base || history == base + [line])
  {
    var (reg1, mode) := Gate(reg, msg, cfg, draw, w.today);
    if Answers(mode) {
      var id := msg.guildId;
      var reg2 := Opened(reg1, id, mode, w.today);
      GenerateKeepsTheQuestion(reg2, store, cfg.engine, MessageFor(mode, msg), id,
                               InstructionFor(mode), SpeakerFor(mode, msg), w);
      GenerateRecordsTheExchange(reg2, store, cfg.engine, MessageFor(mode, msg), id,
                                 InstructionFor(mode), SpeakerFor(mode, msg), w);
    }
  }

  /** Once the day's question is answered, no other message that day answers it again. */
  lemma OneQuestionPerDay(reg: Registry, store: Store, msg: Message, cfg: BotConfig, draw: int, w: World,
                          next: Message, nextDraw: int, later: World)
    requires next.guildId == msg.guildId && later.today == w.today
    ensures var o := HandleMessage(reg, store, msg, cfg, draw, w);
      o.mode == QotdAnswer ==> HandleMessage(o.registry, o.store, next, cfg, nextDraw, later).mode != QotdAnswer
  {
  }

  /** A record that may no longer speak: the king is dead, or the quota is exceeded. */
  predicate Silenced(reg: Registry, id: int, maxResponses: int) {
    id in reg && !CanRespond(reg, id, maxResponses)
  }

  /** A silenced server's record survives any message untouched, and nothing is said there. */
  lemma SilenceHolds(reg: Registry, store: Store, msg: Message, cfg: BotConfig, draw: int, w: World, id: int)
    requires Silenced(reg, id, cfg.maxResponsesPerDay)
    ensures var o := HandleMessage(reg, store, msg, cfg, draw, w);
      && id in o.registry && o.registry[id] == reg[id]
      && (msg.guildId == id ==> o.posted == None && o.mode in {Ignored, Blocked})
  {
  }

  /** The same for one step of a run. */
  lemma SilentStep(reg: Registry, store: Store, cfg: BotConfig, e: Event, id: int)
    requires Silenced(reg, id, cfg.maxResponsesPerDay)
    ensures var r := Step(reg, store, cfg, e);
      && id in r.0 && r.0[id] == reg[id]
      && forall k :: 0 <= k < |r.2| ==> r.2[k].guildId != id
  {
  }

  /** Silence is final: once the king is dead or past the quota, nothing more is said on that
      server and its record never changes, whatever arrives and on whatever day. The counter is
      never reset, so a quota once exceeded is exceeded on every later day too. */
  lemma {:induction false} SilentForever(reg: Registry, store: Store, cfg: BotConfig, events: seq<Event>, id: int)
    requires Silenced(reg, id, cfg.maxResponsesPerDay)
    ensures var r := Run(reg, store, cfg, events);
      && id in r.0 && r.0[id] == reg[id]
      && forall k :: 0 <= k < |r.2| ==> r.2[k].guildId != id
    decreases |events|
  {
    if events != [] {
      var first := Step(reg, store, cfg, events[0]);
      SilentStep(reg, store, cfg, events[0], id);
      assert Silenced(first.0, id, cfg.maxResponsesPerDay);
      SilentForever(first.0, first.1, cfg, events[1..], id);
      var rest := Run(first.0, first.1, cfg, events[1..]);
      assert Run(reg, store, cfg, events).2 == first.2 + rest.2;
    }
  }

  /** A dead king stays dead. */
  lemma DeathIsFinal(reg: Registry, store: Store, cfg: BotConfig, events: seq<Event>, id: int)
    requires id in reg && reg[id].unrest >= DeathUnrest
    ensures var r := Run(reg, store, cfg, events);
      id in r.0 && r.0[id].unrest >= DeathUnrest && forall k :: 0 <= k < |r.2| ==> r.2[k].guildId != id
  {
    SilentForever(reg, store, cfg, events, id);
  }

  /** One message moves a server's counters by at most one each, and never down. */
  predicate StepAtMostOne(before: State, after: State) {
    && before.unrest <= after.unrest <= before.unrest + 1
    && before.responsesSent <= after.responsesSent <= before.responsesSent + 1
  }

  /** Neither counter of a server ever falls. */
  predicate NeverFalls(before: State, after: State) {
    before.unrest <= after.unrest && before.responsesSent <= after.responsesSent
  }

  lemma OneStepAtATime(reg: Registry, store: Store, msg: Message, cfg: BotConfig, draw: int, w: World, id: int)
    requires id in reg
    ensures var o := HandleMessage(reg, store, msg, cfg, draw, w);
      id in o.registry && StepAtMostOne(reg[id], o.registry[id])
  {
  }

  /** Over any run, unrest and the response counter only grow; the king never calms down. */
  lemma {:induction false} CountersNeverFall(reg: Registry, store: Store, cfg: BotConfig, events: seq<Event>, id: int)
    requires id in reg
    ensures var r := Run(reg, store, cfg, events); id in r.0 && NeverFalls(reg[id], r.0[id])
    decreases |events|
  {
    if events != [] {
      var e := events[0];
      var first := Step(reg, store, cfg, e);
      OneStepAtATime(reg, store, e.msg, cfg, e.draw, e.w, id);
      CountersNeverFall(first.0, first.1, cfg, events[1..], id);
    }
  }

  /** With the quota exactly used up, a mention on an answered day gets the farewell; once it
      is posted the server is silenced. Another answer at the quota, a trigger-word aside,
      also counts, so the counter can pass the quota without a farewell; either way nothing
      is answered after it. */
  lemma FarewellEndsTheDay(reg: Registry, store: Store, msg: Message, cfg: BotConfig, draw: int, w: World)
    requires msg.guildId in reg && !msg.fromBot && msg.channelName == cfg.channelName
    requires msg.mentionsBot && !msg.mentionsEveryone
    requires reg[msg.guildId].unrest < DeathUnrest
    requires reg[msg.guildId].responsesSent == cfg.maxResponsesPerDay
    requires reg[msg.guildId].lastAnsweredDate == Format(w.today)
    ensures var o := HandleMessage(reg, store, msg, cfg, draw, w);
      && o.mode == Farewell
      && (o.posted.Some? ==> Silenced(o.registry, msg.guildId, cfg.maxResponsesPerDay))
  {
  }

  /** The number of draws in 1..100 that make a long message provoke an aside: twice the
      remaining quota, within 0..100. */
  function AsideOdds(maxResponses: int, sent: int): (r: nat)
    ensures r <= 100
    ensures sent >= maxResponses ==> r == 0
  {
    var odds := 2 * (maxResponses - sent);
    if odds <= 0 then 0 else if odds >= 100 then 100 else odds
  }

  /** The draws 1..n of `random.randint(1, n)`. */
  function Draws(n: nat): (r: set<int>)
    ensures forall d :: d in r <==> 1 <= d <= n
    ensures |r| == n
  {
    if n == 0 then {} else
      var r := Draws(n - 1);
      assert n !in r;
      r + {n}
  }

  /** Without a trigger word, a short message never provokes an aside, and a long one does for
      exactly `AsideOdds` of the hundred equally likely draws: the chance shrinks with the
      remaining quota and is nil once it is used up. */
  lemma AsideChance(content: string, words: seq<string>, maxResponses: int, sent: int)
    requires !HasTriggerWord(content, words)
    ensures |set d | d in Draws(100) && ShouldAside(content, words, maxResponses, sent, d)|
            == if |content| > LongMessage then AsideOdds(maxResponses, sent) else 0
  {
    var k := if |content| > LongMessage then AsideOdds(maxResponses, sent) else 0;
    var provoking := set d | d in Draws(100) && ShouldAside(content, words, maxResponses, sent, d);
    forall d ensures d in provoking <==> d in Draws(k) {
    }
    assert provoking == Draws(k);
  }

  /** On an answered day, with asides enabled, a message that names a trigger word and does not
      mention the king gets an aside whatever the draw; once posted, it counts. */
  lemma TriggerWordAlwaysWorks(reg: Registry, store: Store, msg: Message, cfg: BotConfig, draw: int, w: World, k: int)
    requires !msg.fromBot && msg.channelName == cfg.channelName
    requires msg.guildId in reg && CanRespond(reg, msg.guildId, cfg.maxResponsesPerDay)
    requires reg[msg.guildId].lastAnsweredDate == Format(w.today)
    requires !(msg.mentionsBot && !msg.mentionsEveryone) && cfg.randomResponses
    requires 0 <= k < |cfg.triggerWords| && Contains(Lower(msg.content), cfg.triggerWords[k])
    ensures var o := HandleMessage(reg, store, msg, cfg, draw, w);
      && o.mode == Aside
      && (o.posted.Some? ==> o.registry[msg.guildId].responsesSent == reg[msg.guildId].responsesSent + 1)
  {
  }

  /** The prompt of an answer carries the unrest the king feels at that moment, readable back
      from the digits after the text introducing it: one more than before on the day's
      question, whose reset comes first, and the stored value otherwise. */
  lemma PromptCarriesTheUnrest(reg: Registry, store: Store, msg: Message, cfg: BotConfig, mode: Mode, w: World)
    requires msg.guildId in reg && reg[msg.guildId].unrest >= 0
    requires cfg.engine.persona.afterUnrest != [] && !IsDigit(cfg.engine.persona.afterUnrest[0])
    ensures var g := Ask(reg, store, msg, cfg, mode, w);
      var before := |cfg.engine.persona.beforeUnrest|;
      !QueryRaised(g.answer) ==>
        && |g.sent| >= 1 && g.sent[0].role == System && before <= |g.sent[0].content|
        && DecimalValue(DigitPrefix(g.sent[0].content[before..]))
             == reg[msg.guildId].unrest + (if mode == QotdAnswer then 1 else 0)
  {
    var id := msg.guildId;
    var reg2 := Opened(reg, id, mode, w.today);
    GenerateSendsPromptAndConversation(reg2, store, cfg.engine, MessageFor(mode, msg), id, InstructionFor(mode),
                                       SpeakerFor(mode, msg), true, w);
    var g := GenerateResponse(reg2, store, cfg.engine, MessageFor(mode, msg), id, InstructionFor(mode),
                              SpeakerFor(mode, msg), true, w);
    if !QueryRaised(g.answer) {
      var facts := if id != 0 then ChooseRelevantFacts(w.query, cfg.engine.relevanceThreshold).value else [];
      var summary := if id != 0 then reg2[id].activeSummary else "";
      UnrestReadsBack(cfg.engine.persona, reg2[id].unrest, w.today, facts, InstructionFor(mode), summary);
    }
  }

  /** The handler reads the message in a normal form: reading it twice changes nothing, so
      letter case and asterisks never matter to the question-of-the-day test. */
  lemma {:induction false} TrimmedIsNormal(content: string)
    ensures Trimmed(Trimmed(content)) == Trimmed(content)
  {
    var t := Trimmed(content);
    assert Lower(t) == t;
    RemoveCharAbsent(t, '*');
  }
}

=== FILE: message_handlers.dfy ===
/** `handle_message` of `message_handlers.py`: which incoming Discord message the king answers,
    and how. The first matching rule wins: the bot's own messages and other channels are ignored; a
    dead king or a spent daily quota stays silent; the day's question is answered once; before
    it nothing else is; a direct mention is answered (with a farewell when the quota is exactly
    used up); otherwise, when enabled, trigger words or a long message with a random draw
    provoke an aside. The draw `random.randint(1, 100)` is an input. */
module MessageHandlers {
  import opened Wrappers
  import opened Text
  import opened Dates
  import opened ServerManager
  import opened FactStore
  import opened ChatEngine

  /** The parts of a Discord message the handler reads. `mentionsBot` is "the bot is among the
      mentioned users". */
  datatype Message = Message(
    fromBot: bool,
    channelName: string,
    guildId: int,
    authorName: string,
    content: string,
    mentionsBot: bool,
    mentionsEveryone: bool)

  datatype BotConfig = BotConfig(
    channelName: string,
    maxResponsesPerDay: int,
    randomResponses: bool,
    triggerWords: seq<string>,
    engine: EngineConfig)

  /** The extra instruction each kind of answer passes to `generate_response`. */
  const QotdInstruction: string :=
    "ALL QUESTIONS SHOULD BE ANSWERED WITH A SPECIFIC ANSWER. Do not repeat your response. Answer in 50 words or fewer."
  const FarewellInstruction: string :=
    "Offer a short, vague excuse for why you must leave for the rest of the day, and give a goodbye."
  const MentionInstruction: string := "The user is talking to you directly."
  const AsideInstruction: string :=
    "The user's message is not addressed to you, but assert your opinion on what the user said."

  /** Messages longer than this may provoke an aside by chance. */
  const LongMessage: nat := 80

  /** What the handler does with a message. */
  datatype Mode =
    | Ignored       // the bot's own message, or another channel
    | Blocked       // the king is dead or the day's quota is spent
    | QotdAnswer    // the day's question, answered
    | Waiting       // the day's question has not come yet
    | Farewell      // a mention that uses up the quota: a goodbye
    | DirectReply   // a mention
    | Aside         // a trigger word or a lucky long message
    | Unmoved       // none of the above

  /** The message as the QOTD and mention paths read it: lower case, without asterisks, and
      otherwise the same characters as the lowered message. */
  function Trimmed(content: string): (r: string)
    ensures '*' !in r && |r| <= |content|
    ensures forall i :: 0 <= i < |r| ==> LowerChar(r[i]) == r[i]
    ensures forall c :: c != '*' ==> multiset(r)[c] == multiset(Lower(content))[c]
  {
    LoweredStaysLower(content);
    RemoveChar(Lower(content), '*')
  }

  /** Removing asterisks from a lowered text leaves it lower case. */
  lemma LoweredStaysLower(content: string)
    ensures forall i :: 0 <= i < |RemoveChar(Lower(content), '*')| ==>
      LowerChar(RemoveChar(Lower(content), '*')[i]) == RemoveChar(Lower(content), '*')[i]
  {
    var t := RemoveChar(Lower(content), '*');
    forall i | 0 <= i < |t| ensures LowerChar(t[i]) == t[i] {
      assert t[i] in multiset(t);
      assert t[i] in multiset(Lower(content));
      var j :| 0 <= j < |Lower(content)| && Lower(content)[j] == t[i];
      assert t[i] == LowerChar(content[j]);
    }
  }

  /** Trimming is the two Python calls in order: `lower()`, then `replace("*", "")`. */
  lemma TrimmedIsReplace(content: string)
    ensures Trimmed(content) == ReplaceAll(Lower(content), "*", "")
  {
    RemoveCharIsReplace(Lower(content), '*');
  }

  predicate IsQotd(trimmed: string) {
    Contains(trimmed, "qotd:") || Contains(trimmed, "question of the day:")
  }

  /** Some trigger word occurs in the lower-cased message (asterisks included). */
  predicate HasTriggerWord(content: string, words: seq<string>) {
    exists k :: 0 <= k < |words| && Contains(Lower(content), words[k])
  }

  /** `should_respond` of `handle_trigger_words`: a trigger word, or a long message whose draw
      falls within twice the remaining quota. */
  predicate ShouldAside(content: string, words: seq<string>, maxResponses: int, sent: int, draw: int) {
    HasTriggerWord(content, words) || (|content| > LongMessage && draw <= 2 * (maxResponses - sent))
  }

  /** The decision, once the server has a record. */
  function Decide(reg: Registry, msg: Message, cfg: BotConfig, draw: int, today: CalendarDate): (m: Mode)
    requires msg.guildId in reg
    ensures m != Ignored
    ensures m == Blocked <==> !CanRespond(reg, msg.guildId, cfg.maxResponsesPerDay)
    ensures m == QotdAnswer <==>
      && CanRespond(reg, msg.guildId, cfg.maxResponsesPerDay)
      && IsQotd(Trimmed(msg.content))
      && reg[msg.guildId].lastAnsweredDate != Format(today)
    ensures m == Waiting <==>
      && CanRespond(reg, msg.guildId, cfg.maxResponsesPerDay)
      && !IsQotd(Trimmed(msg.content))
      && reg[msg.guildId].lastAnsweredDate != Format(today)
    ensures m in {Farewell, DirectReply, Aside, Unmoved} ==>
      && CanRespond(reg, msg.guildId, cfg.maxResponsesPerDay)
      && reg[msg.guildId].lastAnsweredDate == Format(today)
    ensures m in {Farewell, DirectReply} <==>
      && CanRespond(reg, msg.guildId, cfg.maxResponsesPerDay)
      && !(IsQotd(Trimmed(msg.content)) && reg[msg.guildId].lastAnsweredDate != Format(today))
      && reg[msg.guildId].lastAnsweredDate == Format(today)
      && msg.mentionsBot && !msg.mentionsEveryone
    ensures m == Farewell ==> reg[msg.guildId].responsesSent == cfg.maxResponsesPerDay
    ensures m == DirectReply ==> reg[msg.guildId].responsesSent < cfg.maxResponsesPerDay
    ensures m == Aside <==>
      && CanRespond(reg, msg.guildId, cfg.maxResponsesPerDay)
      && reg[msg.guildId].lastAnsweredDate == Format(today)
      && !(msg.mentionsBot && !msg.mentionsEveryone)
      && cfg.randomResponses
      && ShouldAside(msg.content, cfg.triggerWords, cfg.maxResponsesPerDay, reg[msg.guildId].responsesSent, draw)
  {
    var id := msg.guildId;
    var st := reg[id];
    if !CanRespond(reg, id, cfg.maxResponsesPerDay) then Blocked
    else if IsQotd(Trimmed(msg.content)) && !IsQotdAnsweredToday(reg, id, today) then QotdAnswer
    else if !IsQotdAnsweredToday(reg, id, today) then Waiting
    else if msg.mentionsBot && !msg.mentionsEveryone then
      if st.responsesSent == cfg.maxResponsesPerDay then Farewell else DirectReply
    else if cfg.randomResponses
         && ShouldAside(msg.content, cfg.triggerWords, cfg.maxResponsesPerDay, st.responsesSent, draw)
    then Aside
    else Unmoved
  }

  /** The gate: the two early returns, then the record is fetched (or created) and `Decide`
      chooses. */
  function Gate(reg: Registry, msg: Message, cfg: BotConfig, draw: int, today: CalendarDate): (r: (Registry, Mode))
    ensures msg.fromBot || msg.channelName != cfg.channelName <==> r.1 == Ignored
    ensures r.1 == Ignored ==> r.0 == reg
    ensures r.1 != Ignored ==> r.0 == GetServerState(reg, msg.guildId).0
  {
    if msg.fromBot || msg.channelName != cfg.channelName then (reg, Ignored)
    else
      var reg1 := GetServerState(reg, msg.guildId).0;
      (reg1, Decide(reg1, msg, cfg, draw, today))
  }

  /** What a message leaves behind: the registry and fact store after it, what the handler
      chose, and the text posted, if any. */
  datatype Outcome = Outcome(registry: Registry, store: Store, mode: Mode, posted: Option<string>)

  /** Whether a mode's answer counts against the daily quota: the question of the day does not. */
  predicate Counts(mode: Mode) {
    mode in {Farewell, DirectReply, Aside}
  }

  /** Whether the handler asks the model for an answer at all. */
  predicate Answers(mode: Mode) {
    mode == QotdAnswer || Counts(mode)
  }

  /** After `generate_response`: the answer is posted and, for a counted mode, the counter of
      the server rises. An exception from the engine ends the handler before either happens. */
  function Settle(g: Generated, id: int, mode: Mode): (o: Outcome)
    ensures o.store == g.store && o.mode == mode
    ensures o.posted.Some? <==> g.answer.Success?
    ensures o.posted.Some? ==> o.posted.value == g.answer.value
    ensures o.registry == if g.answer.Success? && Counts(mode) then IncrementResponses(g.registry, id) else g.registry
  {
    var after := if g.answer.Success? && Counts(mode) then IncrementResponses(g.registry, id) else g.registry;
    Outcome(after, g.store, mode, if g.answer.Success? then Some(g.answer.value) else None)
  }

  /** The message the engine is given: the farewell ignores what was said. */
  function MessageFor(mode: Mode, msg: Message): string {
    if mode == Farewell then "" else Trimmed(msg.content)
  }

  /** The speaker the line is attributed to: nobody, for the farewell. */
  function SpeakerFor(mode: Mode, msg: Message): string {
    if mode == Farewell then "" else msg.authorName
  }

  function InstructionFor(mode: Mode): string {
    match mode
    case QotdAnswer => QotdInstruction
    case Farewell => FarewellInstruction
    case DirectReply => MentionInstruction
    case _ => AsideInstruction
  }

  /** The record the engine starts from: the question of the day first opens a new day. */
  function Opened(reg: Registry, id: int, mode: Mode, today: CalendarDate): (r: Registry)
    ensures r.Keys == reg.Keys
    ensures forall k :: k in reg && k != id ==> r[k] == reg[k]
    ensures mode != QotdAnswer ==> r == reg
    // the new day: an empty conversation, one more point of unrest, today's date
    ensures mode == QotdAnswer && id in reg ==>
      && r[id].chatHistory == []
      && r[id].unrest == reg[id].unrest + 1
      && r[id].lastAnsweredDate == Format(today)
      && r[id].responsesSent == reg[id].responsesSent
      && r[id].activeSummary == reg[id].activeSummary
  {
    if mode == QotdAnswer then ResetDailyChat(reg, id, today) else reg
  }

  /** The engine call of an answering mode, on the server's own record. */
  function Ask(reg: Registry, store: Store, msg: Message, cfg: BotConfig, mode: Mode, w: World): (g: Generated)
    requires msg.guildId in reg
    ensures g.registry.Keys == reg.Keys && g.store.Keys == store.Keys
    ensures forall k :: k in reg && k != msg.guildId ==> g.registry[k] == reg[k]
    // of the server's own record only the conversation and the new day's fields change
    ensures var before := reg[msg.guildId]; var after := g.registry[msg.guildId];
      && after.unrest == before.unrest + (if mode == QotdAnswer then 1 else 0)
      && after.lastAnsweredDate == (if mode == QotdAnswer then Format(w.today) else before.lastAnsweredDate)
      && after.responsesSent == before.responsesSent
      && after.activeSummary == before.activeSummary
    // an answer comes out exactly when the query (made only with a server id) and the model succeed
    ensures g.answer.Success? <==>
      w.reply.Some? && (msg.guildId == 0 || ChooseRelevantFacts(w.query, cfg.engine.relevanceThreshold).Success?)
    ensures g.answer.Success? ==> g.answer.value == PostProcess(w.reply.value, cfg.engine.maxResponseLength)
  {
    var id := msg.guildId;
    var reg2 := Opened(reg, id, mode, w.today);
    GenerateTouchesOnlyHistory(reg2, store, cfg.engine, MessageFor(mode, msg), id, InstructionFor(mode),
                               SpeakerFor(mode, msg), true, w);
    GenerateAnswersWithTheReply(reg2, store, cfg.engine, MessageFor(mode, msg), id, InstructionFor(mode),
                                SpeakerFor(mode, msg), true, w);
    GenerateResponse(reg2, store, cfg.engine, MessageFor(mode, msg), id, InstructionFor(mode),
                     SpeakerFor(mode, msg), true, w)
  }

  /** `handle_message`, with one reading of the clock (`w.today`) for the whole message. */
  function HandleMessage(reg: Registry, store: Store, msg: Message, cfg: BotConfig, draw: int, w: World): (o: Outcome)
    ensures o.mode == Gate(reg, msg, cfg, draw, w.today).1
    // nothing is said, and nothing is stored, unless the handler answers
    ensures !Answers(o.mode) ==> o.store == store && o.posted == None
    ensures !Answers(o.mode) ==> o.registry == Gate(reg, msg, cfg, draw, w.today).0
    // the other servers are left alone
    ensures o.mode == Ignored ==> o.registry == reg
    ensures o.mode != Ignored ==> o.registry.Keys == reg.Keys + {msg.guildId}
    ensures forall k :: k in reg && k != msg.guildId ==> o.registry[k] == reg[k]
    ensures o.store.Keys == store.Keys
    // an answering mode posts exactly when the query (made only with a server id) and the model succeed
    ensures Answers(o.mode) ==>
      (o.posted.Some? <==>
         w.reply.Some? && (msg.guildId == 0 || ChooseRelevantFacts(w.query, cfg.engine.relevanceThreshold).Success?))
    // the server's counters: unrest rises with the day's question, the quota with a posted answer
    ensures o.mode != Ignored ==>
      var before := GetServerState(reg, msg.guildId).1; var after := o.registry[msg.guildId];
      && after.unrest == before.unrest + (if o.mode == QotdAnswer then 1 else 0)
      && after.responsesSent == before.responsesSent + (if o.posted.Some? && Counts(o.mode) then 1 else 0)
      && after.lastAnsweredDate == (if o.mode == QotdAnswer then Format(w.today) else before.lastAnsweredDate)
      && after.activeSummary == before.activeSummary
  {
    var (reg1, mode) := Gate(reg, msg, cfg, draw, w.today);
    if !Answers(mode) then Outcome(reg1, store, mode, None)
    else Settle(Ask(reg1, store, msg, cfg, mode, w), msg.guildId, mode)
  }
}

=== FILE: prototype.dfy ===
/** The earlier single-file bot, `on_message` of `monarch_bot.py`: the same gate in a simpler
    form. It has no unrest and no death, keeps the conversation as one string, watches the
    channel "qotd" with a quota of 3, and merges mention, trigger word and random draw into a
    single condition. The model replies are inputs; `None` stands for an exception from the
    model call. */
module Prototype {
  import opened Wrappers
  import opened Text
  import opened Dates
  import opened ServerManager
  import opened ChatEngine
  import opened MessageHandlers

  const MaxResponses: int := 3
  const QotdChannel: string := "qotd"
  const TriggerWords: seq<string> :=
    ["king", "monarch", "royal", "crown", "throne", "government", "democracy", "monarchy", "president", "dictator"]

  /** The four advisors the prototype keeps facts for. */
  const Advisors: set<string> := {"personal_advisor", "media_advisor", "travel_advisor", "technology_advisor"}

  /** A server's record in the prototype: the conversation is one growing string. */
  datatype ProtoState = ProtoState(lastAnsweredDate: string, responsesSent: int, chatHistory: string)

  type ProtoRegistry = map<int, ProtoState>

  /** The record of a server, created empty on its first message. */
  function ProtoRecord(reg: ProtoRegistry, id: int): (r: ProtoRegistry)
    ensures id in r && r.Keys == reg.Keys + {id}
    ensures forall k :: k in reg ==> r[k] == reg[k]
    ensures id !in reg ==> r[id] == ProtoState("", 0, "")
  {
    if id in reg then reg else reg[id := ProtoState("", 0, "")]
  }

  /** `.replace("\n\n", "\n").replace("*", "").strip()` on every reply. */
  function ProtoClean(raw: string): (r: string)
    ensures '*' !in r
  {
    var noStars := RemoveChar(ReplaceAll(raw, "\n\n", "\n"), '*');
    StripAddsNothing(noStars, '*');
    Strip(noStars)
  }

  /** The single condition for a reply: a mention, a trigger word, or a long message with a
      lucky draw. */
  predicate ProtoShouldReply(msg: Message, sent: int, draw: int) {
    || (msg.mentionsBot && !msg.mentionsEveryone)
    || HasTriggerWord(msg.content, TriggerWords)
    || (|msg.content| > LongMessage && draw <= 2 * (MaxResponses - sent))
  }

  /** The prototype's decision, once the server has a record; `today` is the formatted date. */
  function ProtoDecide(reg: ProtoRegistry, msg: Message, draw: int, today: string): (m: Mode)
    requires msg.guildId in reg
    ensures m != Ignored && m != Aside
    ensures m == Blocked <==> reg[msg.guildId].responsesSent > MaxResponses
    ensures m == QotdAnswer <==>
      && reg[msg.guildId].responsesSent <= MaxResponses
      && IsQotd(Trimmed(msg.content)) && reg[msg.guildId].lastAnsweredDate != today
    ensures m == Waiting <==>
      && reg[msg.guildId].responsesSent <= MaxResponses
      && !IsQotd(Trimmed(msg.content)) && reg[msg.guildId].lastAnsweredDate != today
    ensures m in {Farewell, DirectReply} <==>
      && reg[msg.guildId].responsesSent <= MaxResponses && reg[msg.guildId].lastAnsweredDate == today
      && ProtoShouldReply(msg, reg[msg.guildId].responsesSent, draw)
    ensures m == Farewell ==> reg[msg.guildId].responsesSent == MaxResponses
    ensures m == DirectReply ==> reg[msg.guildId].responsesSent < MaxResponses
  {
    var st := reg[msg.guildId];
    if st.responsesSent > MaxResponses then Blocked
    else if IsQotd(Trimmed(msg.content)) && st.lastAnsweredDate != today then QotdAnswer
    else if st.lastAnsweredDate != today then Waiting
    else if ProtoShouldReply(msg, st.responsesSent, draw) then
      if st.responsesSent == MaxResponses then Farewell else DirectReply
    else Unmoved
  }

  function ProtoGate(reg: ProtoRegistry, msg: Message, draw: int, today: string): (r: (ProtoRegistry, Mode))
    ensures msg.fromBot || msg.channelName != QotdChannel <==> r.1 == Ignored
    ensures r.1 == Ignored ==> r.0 == reg
    ensures r.1 != Ignored ==> r.0 == ProtoRecord(reg, msg.guildId)
  {
    if msg.fromBot || msg.channelName != QotdChannel then (reg, Ignored)
    else
      var reg1 := ProtoRecord(reg, msg.guildId);
      (reg1, ProtoDecide(reg1, msg, draw, today))
  }

  /** The conversation a new day starts with: the question, then the answer. */
  function QotdHistory(trimmed: string, answer: string): string {
    "**" + trimmed + "\n" + "**You said:\n" + answer + "\n"
  }

  function TheySaid(content: string): string {
    "**They said: \n" + content + "\n"
  }

  function YouSaid(answer: string): string {
    "**You said: \n" + answer + "\n"
  }

  /** One answering branch of `on_message` on the server's record: the record afterwards and
      what was posted. The model's text is posted cleaned; when the model raises, only the
      reply branch has already written the user's line. */
  function ProtoAnswer(st: ProtoState, mode: Mode, msg: Message, today: string, reply: Option<string>)
    : (r: (ProtoState, Option<string>))
    ensures r.1.Some? <==> reply.Some?
    ensures r.1.Some? ==> r.1.value == ProtoClean(reply.value)
  {
    match mode
    case QotdAnswer =>
      (match reply
       case None => (st, None)
       case Some(raw) =>
         var answer := ProtoClean(raw);
         (st.(chatHistory := QotdHistory(Trimmed(msg.content), answer), lastAnsweredDate := today), Some(answer)))
    case Farewell =>
      (match reply
       case None => (st, None)
       case Some(raw) => (st.(responsesSent := st.responsesSent + 1), Some(ProtoClean(raw))))
    case _ =>
      // the user's line goes in before the model is called
      var heard := st.(chatHistory := st.chatHistory + TheySaid(msg.content));
      match reply
      case None => (heard, None)
      case Some(raw) =>
        var answer := ProtoClean(raw);
        (heard.(chatHistory := heard.chatHistory + YouSaid(answer), responsesSent := st.responsesSent + 1),
         Some(answer))
  }

  /** `on_message`: the registry after the message, the mode, and what was posted. */
  function ProtoHandle(reg: ProtoRegistry, msg: Message, draw: int, today: CalendarDate, reply: Option<string>)
    : (r: (ProtoRegistry, Mode, Option<string>))
    ensures r.1 == ProtoGate(reg, msg, draw, Format(today)).1
    ensures r.2.Some? <==> r.1 in {QotdAnswer, Farewell, DirectReply} && reply.Some?
    ensures r.2.Some? ==> r.2.value == ProtoClean(reply.value)
    ensures r.1 == Ignored ==> r.0 == reg
    ensures r.1 != Ignored ==> r.0.Keys == reg.Keys + {msg.guildId}
    ensures forall k :: k in reg && k != msg.guildId ==> r.0[k] == reg[k]
  {
    var (reg1, mode) := ProtoGate(reg, msg, draw, Format(today));
    if mode !in {QotdAnswer, Farewell, DirectReply} then (reg1, mode, None)
    else
      var answered := ProtoAnswer(reg1[msg.guildId], mode, msg, Format(today), reply);
      (reg1[msg.guildId := answered.0], mode, answered.1)
  }

  /** The record after each kind of answer: the day's question replaces the conversation and
      sets the date but leaves the counter; the farewell only counts; a reply extends the
      conversation and counts once answered. */
  lemma ProtoEffects(reg: ProtoRegistry, msg: Message, draw: int, today: CalendarDate, reply: Option<string>)
    ensures var r := ProtoHandle(reg, msg, draw, today, reply);
      r.1 != Ignored ==>
        var before := ProtoRecord(reg, msg.guildId)[msg.guildId];
        var after := r.0[msg.guildId];
        && (r.1 == QotdAnswer && reply.Some? ==>
              && after.chatHistory == QotdHistory(Trimmed(msg.content), r.2.value)
              && after.lastAnsweredDate == Format(today)
              && after.responsesSent == before.responsesSent)
        && (r.1 == Farewell && reply.Some? ==>
              after == before.(responsesSent := before.responsesSent + 1))
        && (r.1 == DirectReply ==>
              && after.lastAnsweredDate == before.lastAnsweredDate
              && (reply.None? ==> after.chatHistory == before.chatHistory + TheySaid(msg.content)
                                  && after.responsesSent == before.responsesSent)
              && (reply.Some? ==> after.chatHistory == before.chatHistory + TheySaid(msg.content) + YouSaid(r.2.value)
                                  && after.responsesSent == before.responsesSent + 1))
        && (reply.None? || r.1 !in {QotdAnswer, Farewell, DirectReply} ==>
              after.responsesSent == before.responsesSent && after.lastAnsweredDate == before.lastAnsweredDate)
  {
  }

  /** Past the quota the prototype is silent for good: the record no longer changes. */
  lemma ProtoSilenceHolds(reg: ProtoRegistry, msg: Message, draw: int, today: CalendarDate, reply: Option<string>, id: int)
    requires id in reg && reg[id].responsesSent > MaxResponses
    ensures var r := ProtoHandle(reg, msg, draw, today, reply);
      id in r.0 && r.0[id] == reg[id] && (msg.guildId == id ==> r.2 == None)
  {
  }

  /** `decide_advice`: the model's pick of a fact, with newlines removed and the ends stripped,
      asked for only when the advisor is one of the four; otherwise nothing. */
  function DecideAdvice(advisor: string, generated: string): (r: string)
    ensures advisor !in Advisors ==> r == []
    ensures '\n' !in r
    ensures r == [] || (!IsSpace(r[0]) && !IsSpace(r[|r| - 1]))
  {
    if advisor in Advisors then
      var oneLine := RemoveChar(generated, '\n');
      StripAddsNothing(oneLine, '\n');
      Strip(oneLine)
    else []
  }

  /** For an unknown advisor the model's text plays no part; for a known one the advice is the
      model's text as `str.replace("\n", "")` and `strip` leave it. */
  lemma AdviceOnlyFromKnownAdvisors(advisor: string, generated: string, other: string)
    ensures advisor !in Advisors ==> DecideAdvice(advisor, generated) == DecideAdvice(advisor, other)
    ensures advisor in Advisors ==> DecideAdvice(advisor, generated) == Strip(ReplaceAll(generated, "\n", ""))
  {
    RemoveCharIsReplace(generated, '\n');
  }

  // ---------------------------------------------------------------------------------------
  // The prototype against `handle_message`

  /** A prototype record and a record of the newer registry that tell the same story: the same
      day and count, and a king still alive. */
  predicate Corresponds(p: ProtoState, s: State) {
    p.lastAnsweredDate == s.lastAnsweredDate && p.responsesSent == s.responsesSent && s.unrest < DeathUnrest
  }

  /** The newer handler configured like the prototype. */
  predicate LikePrototype(cfg: BotConfig) {
    && cfg.channelName == QotdChannel && cfg.maxResponsesPerDay == MaxResponses
    && cfg.randomResponses && cfg.triggerWords == TriggerWords
  }

  predicate Responding(m: Mode) {
    m in {Farewell, DirectReply, Aside}
  }

  /** Configured alike and on corresponding records, the two gates decide alike, except that
      the newer one gives the farewell only to a mention: a trigger word or a lucky draw at an
      exhausted quota gets an ordinary aside there, and the farewell in the prototype. */
  lemma GatesAgree(preg: ProtoRegistry, reg: Registry, msg: Message, cfg: BotConfig, draw: int, today: CalendarDate)
    requires LikePrototype(cfg)
    requires msg.guildId in preg <==> msg.guildId in reg
    requires msg.guildId in reg ==> Corresponds(preg[msg.guildId], reg[msg.guildId])
    ensures var p := ProtoGate(preg, msg, draw, Format(today)).1;
      var n := Gate(reg, msg, cfg, draw, today).1;
      && (Responding(p) <==> Responding(n))
      && (!Responding(p) ==> p == n)
      && (n == Farewell ==> p == Farewell)
      && (p == Farewell && !msg.mentionsBot ==> n == Aside)
      && (p == DirectReply ==> n in {DirectReply, Aside})
  {
  }

  /** A concrete case of the difference: "king" at an exhausted quota, without a mention. */
  lemma TriggerAtQuotaDiffers(msg: Message, draw: int, today: CalendarDate)
    requires msg.content == "king" && !msg.mentionsBot && !msg.fromBot && msg.channelName == QotdChannel
    ensures var p := ProtoState(Format(today), MaxResponses, "");
      var s := State(Format(today), MaxResponses, [], 0, "");
      var cfg := BotConfig(QotdChannel, MaxResponses, true, TriggerWords,
                           EngineConfig(0.0, 0, false, Persona("", "", "", "", "")));
      && ProtoGate(map[msg.guildId := p], msg, draw, Format(today)).1 == Farewell
      && Gate(map[msg.guildId := s], msg, cfg, draw, today).1 == Aside
  {
    assert Contains(Lower("king"), TriggerWords[0]) by {
      assert Lower("king") == "king";
      assert "king" <= "king"[0..];
    }
    assert !IsQotd(Trimmed("king")) by {
      assert Lower("king") == "king";
      assert "king"[1..] == "ing" && "ing"[1..] == "ng" && "ng"[1..] == "g" && "g"[1..] == "";
      assert Trimmed("king") == "king";
    }
  }

  /** The two clean-ups differ: the prototype strips the ends but keeps double quotes; the newer
      engine removes the quotes and keeps the ends. On a reply without quotes the prototype's
      answer is the newer one stripped. */
  lemma CleanUpsCompared(raw: string)
    requires '"' !in raw
    ensures ProtoClean(raw) == Strip(CleanReply(raw))
  {
    var collapsed := ReplaceAll(raw, "\n\n", "\n");
    CollapseKeepsOthers(raw, '\n');
    assert multiset(collapsed)['"'] == multiset(raw)['"'] == 0;
    var noStars := RemoveChar(collapsed, '*');
    assert multiset(noStars)['"'] == 0;
    RemoveCharAbsent(noStars, '"');
  }
}

=== FILE: server_manager.dfy ===
/** The per-server state registry: one record per Discord server (guild), keyed by its id,
    holding the day's question-of-the-day date, the response counter, the rolling chat history,
    the peasant unrest percentage and an optional summary. The registry is a value; every
    operation returns the new registry, and "today" is passed in. */
module ServerManager {
  import opened Wrappers
  import opened Dates

  datatype Role = System | User | Assistant

  /** One `{"role": ..., "content": ...}` chat message. */
  datatype Entry = Entry(role: Role, content: string)

  datatype State = State(
    lastAnsweredDate: string,
    responsesSent: int,
    chatHistory: seq<Entry>,
    unrest: int,
    activeSummary: string)

  type Registry = map<int, State>

  /** Unrest at or above this value means the king is dead. */
  const DeathUnrest: int := 101

  /** `get_server_state`: the server's record, created with empty date, zero counters, empty
      history and empty summary when the server has none yet. */
  function GetServerState(reg: Registry, id: int): (r: (Registry, State))
    ensures id in r.0 && r.0[id] == r.1
    ensures r.0.Keys == reg.Keys + {id}
    ensures forall k :: k in reg ==> r.0[k] == reg[k]
    ensures id !in reg ==>
      && r.1.lastAnsweredDate == ""
      && r.1.responsesSent == 0
      && r.1.chatHistory == []
      && r.1.unrest == 0
      && r.1.activeSummary == ""
  {
    if id in reg then (reg, reg[id])
    else
      var created := State("", 0, [], 0, "");
      (reg[id := created], created)
  }

  /** The fields of a record, the keys `update_server_state` accepts. */
  datatype Field = LastAnsweredDate | ResponsesSent | ChatHistory | Unrest | ActiveSummary

  /** One keyword argument of `update_server_state`; `SetUnknown` is a keyword the record
      does not have. */
  datatype Update =
    | SetLastAnsweredDate(date: string)
    | SetResponsesSent(count: int)
    | SetChatHistory(history: seq<Entry>)
    | SetUnrest(percentage: int)
    | SetActiveSummary(summary: string)
    | SetUnknown(key: string)

  /** The field an update names, if the record has it. */
  function FieldOf(u: Update): Option<Field> {
    match u
    case SetLastAnsweredDate(_) => Some(LastAnsweredDate)
    case SetResponsesSent(_) => Some(ResponsesSent)
    case SetChatHistory(_) => Some(ChatHistory)
    case SetUnrest(_) => Some(Unrest)
    case SetActiveSummary(_) => Some(ActiveSummary)
    case SetUnknown(_) => None
  }

  /** The current value of field `f`, written as the update that would set it. */
  function Read(s: State, f: Field): Update {
    match f
    case LastAnsweredDate => SetLastAnsweredDate(s.lastAnsweredDate)
    case ResponsesSent => SetResponsesSent(s.responsesSent)
    case ChatHistory => SetChatHistory(s.chatHistory)
    case Unrest => SetUnrest(s.unrest)
    case ActiveSummary => SetActiveSummary(s.activeSummary)
  }

  /** Two records with the same value in every field are the same record. */
  lemma FieldsDetermineState(s: State, t: State)
    requires forall f :: Read(s, f) == Read(t, f)
    ensures s == t
  {
    assert Read(s, LastAnsweredDate) == Read(t, LastAnsweredDate);
    assert Read(s, ResponsesSent) == Read(t, ResponsesSent);
    assert Read(s, ChatHistory) == Read(t, ChatHistory);
    assert Read(s, Unrest) == Read(t, Unrest);
    assert Read(s, ActiveSummary) == Read(t, ActiveSummary);
  }

  /** One assignment `servers[server_id][key] = value`, skipped for unknown keys. */
  function ApplyUpdate(s: State, u: Update): State {
    match u
    case SetLastAnsweredDate(d) => s.(lastAnsweredDate := d)
    case SetResponsesSent(n) => s.(responsesSent := n)
    case SetChatHistory(h) => s.(chatHistory := h)
    case SetUnrest(p) => s.(unrest := p)
    case SetActiveSummary(m) => s.(activeSummary := m)
    case SetUnknown(_) => s
  }

  /** What one assignment does to field `f`: it takes the update's value when the update names
      `f`, and keeps its value otherwise. */
  lemma ReadAfterUpdate(s: State, u: Update, f: Field)
    ensures Read(ApplyUpdate(s, u), f) == if FieldOf(u) == Some(f) then u else Read(s, f)
  {
  }

  /** The loop of `update_server_state` over its keyword arguments, in order. */
  function UpdateFields(s: State, us: seq<Update>): State
    decreases |us|
  {
    if us == [] then s else UpdateFields(ApplyUpdate(s, us[0]), us[1..])
  }

  /** A field that no keyword argument names keeps its value. */
  lemma {:induction false} UpdateKeepsUnnamedField(s: State, us: seq<Update>, f: Field)
    requires forall k :: 0 <= k < |us| ==> FieldOf(us[k]) != Some(f)
    ensures Read(UpdateFields(s, us), f) == Read(s, f)
    decreases |us|
  {
    if us != [] {
      assert FieldOf(us[0]) != Some(f);
      ReadAfterUpdate(s, us[0], f);
      assert forall k :: 0 <= k < |us| - 1 ==> us[1..][k] == us[k + 1];
      UpdateKeepsUnnamedField(ApplyUpdate(s, us[0]), us[1..], f);
    }
  }

  /** A field ends with the value of the last keyword argument naming it. */
  lemma {:induction false} UpdateLastValueWins(s: State, us: seq<Update>, f: Field, k: nat)
    requires k < |us| && FieldOf(us[k]) == Some(f)
    requires forall j :: k < j < |us| ==> FieldOf(us[j]) != Some(f)
    ensures Read(UpdateFields(s, us), f) == us[k]
    decreases |us|
  {
    var t := ApplyUpdate(s, us[0]);
    ReadAfterUpdate(s, us[0], f);
    assert forall j :: 0 <= j < |us| - 1 ==> us[1..][j] == us[j + 1];
    if k == 0 {
      UpdateKeepsUnnamedField(t, us[1..], f);
    } else {
      UpdateLastValueWins(t, us[1..], f, k - 1);
    }
  }

  /** `update_server_state`: nothing happens for an unknown server; for a known one only its
      record changes, and it changes not at all when every keyword is unknown to it. */
  function UpdateServerState(reg: Registry, id: int, us: seq<Update>): (r: Registry)
    ensures id !in reg ==> r == reg
    ensures r.Keys == reg.Keys
    ensures forall k :: k in reg && k != id ==> r[k] == reg[k]
    ensures id in reg ==> r[id] == UpdateFields(reg[id], us)
    ensures id in reg && (forall k :: 0 <= k < |us| ==> us[k].SetUnknown?) ==> r == reg
  {
    if id in reg then
      var s := UpdateFields(reg[id], us);
      if forall k :: 0 <= k < |us| ==> us[k].SetUnknown? then
        forall f ensures Read(s, f) == Read(reg[id], f) {
          UpdateKeepsUnnamedField(reg[id], us, f);
        }
        FieldsDetermineState(s, reg[id]);
        reg[id := s]
      else reg[id := s]
    else reg
  }

  /** `reset_daily_chat`: a new day's question empties the history, raises unrest by exactly
      one and records today as the answered date; the counter and summary are untouched and an
      unknown server is left alone. */
  function ResetDailyChat(reg: Registry, id: int, today: CalendarDate): (r: Registry)
    ensures id !in reg ==> r == reg
    ensures r.Keys == reg.Keys
    ensures forall k :: k in reg && k != id ==> r[k] == reg[k]
    ensures id in reg ==>
      && r[id].chatHistory == []
      && r[id].unrest == reg[id].unrest + 1
      && r[id].lastAnsweredDate == Format(today)
      && r[id].responsesSent == reg[id].responsesSent
      && r[id].activeSummary == reg[id].activeSummary
  {
    if id in reg then
      var s := reg[id];
      reg[id := s.(chatHistory := [], unrest := s.unrest + 1, lastAnsweredDate := Format(today))]
    else reg
  }

  /** The daily reset is the keyword update of those three fields. */
  lemma ResetIsUpdate(reg: Registry, id: int, today: CalendarDate)
    requires id in reg
    ensures ResetDailyChat(reg, id, today)
         == UpdateServerState(reg, id, [SetChatHistory([]), SetUnrest(reg[id].unrest + 1),
                                        SetLastAnsweredDate(Format(today))])
  {
    var us := [SetChatHistory([]), SetUnrest(reg[id].unrest + 1), SetLastAnsweredDate(Format(today))];
    var r := ResetDailyChat(reg, id, today);
    var t := UpdateFields(reg[id], us);
    forall f ensures Read(r[id], f) == Read(t, f) {
      match f
      case ChatHistory => UpdateLastValueWins(reg[id], us, f, 0);
      case Unrest => UpdateLastValueWins(reg[id], us, f, 1);
      case LastAnsweredDate => UpdateLastValueWins(reg[id], us, f, 2);
      case ResponsesSent => UpdateKeepsUnnamedField(reg[id], us, f);
      case ActiveSummary => UpdateKeepsUnnamedField(reg[id], us, f);
    }
    FieldsDetermineState(r[id], t);
  }

  /** `add_to_chat_history`: exactly one entry is appended at the end and earlier entries stay
      as they were; an unknown server is left alone. */
  function AddToChatHistory(reg: Registry, id: int, role: Role, content: string): (r: Registry)
    ensures id !in reg ==> r == reg
    ensures r.Keys == reg.Keys
    ensures forall k :: k in reg && k != id ==> r[k] == reg[k]
    ensures id in reg ==>
      && |r[id].chatHistory| == |reg[id].chatHistory| + 1
      && r[id].chatHistory[..|reg[id].chatHistory|] == reg[id].chatHistory
      && r[id].chatHistory[|reg[id].chatHistory|] == Entry(role, content)
      && r[id] == reg[id].(chatHistory := r[id].chatHistory)
  {
    if id in reg then
      var s := reg[id];
      reg[id := s.(chatHistory := s.chatHistory + [Entry(role, content)])]
    else reg
  }

  /** `can_respond`: an unknown server may always be answered; a dead king never answers,
      whatever the counter; otherwise the counter may still equal the maximum. */
  function CanRespond(reg: Registry, id: int, maxResponses: int): (r: bool)
    ensures id !in reg ==> r
    ensures id in reg && reg[id].unrest >= DeathUnrest ==> !r
    ensures id in reg && reg[id].unrest < DeathUnrest ==> (r <==> reg[id].responsesSent <= maxResponses)
  {
    if id !in reg then true
    else if reg[id].unrest >= DeathUnrest then false
    else reg[id].responsesSent <= maxResponses
  }

  /** `increment_responses`: the counter of a known server rises by exactly one and nothing
      else changes. */
  function IncrementResponses(reg: Registry, id: int): (r: Registry)
    ensures id !in reg ==> r == reg
    ensures r.Keys == reg.Keys
    ensures forall k :: k in reg && k != id ==> r[k] == reg[k]
    ensures id in reg ==> r[id] == reg[id].(responsesSent := reg[id].responsesSent + 1)
  {
    if id in reg then reg[id := reg[id].(responsesSent := reg[id].responsesSent + 1)] else reg
  }

  /** Incrementing is the keyword update of the counter. */
  lemma IncrementIsUpdate(reg: Registry, id: int)
    requires id in reg
    ensures IncrementResponses(reg, id)
         == UpdateServerState(reg, id, [SetResponsesSent(reg[id].responsesSent + 1)])
  {
    var us := [SetResponsesSent(reg[id].responsesSent + 1)];
    var r := IncrementResponses(reg, id);
    var t := UpdateFields(reg[id], us);
    forall f ensures Read(r[id], f) == Read(t, f) {
      if f == ResponsesSent {
        UpdateLastValueWins(reg[id], us, f, 0);
      } else {
        UpdateKeepsUnnamedField(reg[id], us, f);
      }
    }
    FieldsDetermineState(r[id], t);
  }

  /** `is_qotd_answered_today`: false for an unknown server, otherwise whether the stored date
      is today's. */
  function IsQotdAnsweredToday(reg: Registry, id: int, today: CalendarDate): (r: bool)
    ensures id !in reg ==> !r
    ensures id in reg ==> (r <==> reg[id].lastAnsweredDate == Format(today))
  {
    id in reg && reg[id].lastAnsweredDate == Format(today)
  }

  /** A date recorded by `ResetDailyChat` counts as "answered today" on that day and on no
      other day. */
  lemma AnsweredOnlyOnTheResetDay(reg: Registry, id: int, day: CalendarDate, today: CalendarDate)
    requires id in reg
    ensures IsQotdAnsweredToday(ResetDailyChat(reg, id, day), id, today) <==> day == today
  {
    FormatInjective(day, today);
  }
}

=== FILE: text.dfy ===
/** The handful of Python string operations the bot relies on, written over `seq<char>`:
    `isspace`/`strip`, `lower` on ASCII, `in` (substring), `str.replace`, `str.split` on one
    character, `str.join`, and decimal printing of integers as `f"{n}"` does it. */
module Text {

  /** The characters Python's `str.isspace` accepts (and so `str.strip()` removes). */
  predicate IsSpace(c: char) {
    var n := c as int;
    || n == 0x20
    || 0x09 <= n <= 0x0D
    || 0x1C <= n <= 0x1F
    || n == 0x85 || n == 0xA0 || n == 0x1680
    || 0x2000 <= n <= 0x200A
    || n == 0x2028 || n == 0x2029 || n == 0x202F || n == 0x205F || n == 0x3000
  }

  /** `s.lstrip()`: the longest suffix of `s` that does not start with whitespace. */
  function StripLeft(s: string): (r: string)
    ensures |r| <= |s| && r == s[|s| - |r|..]
    ensures forall k :: 0 <= k < |s| - |r| ==> IsSpace(s[k])
    ensures r == [] || !IsSpace(r[0])
  {
    if s == [] || !IsSpace(s[0]) then s else StripLeft(s[1..])
  }

  /** `s.rstrip()`: the longest prefix of `s` that does not end with whitespace. */
  function StripRight(s: string): (r: string)
    ensures |r| <= |s| && r == s[..|r|]
    ensures forall k :: |r| <= k < |s| ==> IsSpace(s[k])
    ensures r == [] || !IsSpace(r[|r| - 1])
  {
    if s == [] || !IsSpace(s[|s| - 1]) then s else StripRight(s[..|s| - 1])
  }

  /** `s.strip()`: `s` without its leading and trailing whitespace. */
  function Strip(s: string): (r: string)
    ensures |r| <= |s|
    ensures r == [] || (!IsSpace(r[0]) && !IsSpace(r[|r| - 1]))
    ensures (forall k :: 0 <= k < |s| ==> IsSpace(s[k])) <==> r == []
    ensures (s == [] || (!IsSpace(s[0]) && !IsSpace(s[|s| - 1]))) ==> r == s
  {
    StripBlank(s);
    StripRight(StripLeft(s))
  }

  /** Both strips together leave nothing exactly when the text is all whitespace. */
  lemma StripBlank(s: string)
    ensures (forall k :: 0 <= k < |s| ==> IsSpace(s[k])) <==> StripRight(StripLeft(s)) == []
  {
    var left := StripLeft(s);
    var lead := |s| - |left|;
    assert left == s[lead..];
    if StripRight(left) == [] {
      forall k | 0 <= k < |s|
        ensures IsSpace(s[k])
      {
        if k >= lead {
          assert IsSpace(left[k - lead]);
          assert s[k] == left[k - lead];
        }
      }
    } else {
      assert left != [];
      assert s[lead] == left[0];
      assert !IsSpace(s[lead]);
    }
  }

  /** Strip only cuts whitespace off the two ends: `s` is `lead + Strip(s) + trail`
      with `lead` and `trail` made of whitespace. */
  lemma StripCutsEnds(s: string) returns (lead: nat)
    ensures lead + |Strip(s)| <= |s|
    ensures s[lead..lead + |Strip(s)|] == Strip(s)
    ensures forall k :: 0 <= k < lead ==> IsSpace(s[k])
    ensures forall k :: lead + |Strip(s)| <= k < |s| ==> IsSpace(s[k])
  {
    var left := StripLeft(s);
    lead := |s| - |left|;
    var r := StripRight(left);
    assert r == Strip(s);
    StripRightTail(left, s, lead);
    assert lead + |r| <= |s|;
    assert s[lead..lead + |r|] == r;
    assert forall k :: 0 <= k < lead ==> IsSpace(s[k]);
    assert forall k :: lead + |r| <= k < |s| ==> IsSpace(s[k]);
  }

  lemma StripRightTail(left: string, s: string, lead: nat)
    requires lead <= |s| && left == s[lead..]
    ensures var r := StripRight(left);
      && s[lead..lead + |r|] == r
      && forall k :: lead + |r| <= k < |s| ==> IsSpace(s[k])
  {
  }

  /** Stripping twice is stripping once. */
  lemma StripIdempotent(s: string)
    ensures Strip(Strip(s)) == Strip(s)
  {
  }

  /** Stripping only removes: a character absent before is absent after. */
  lemma StripAddsNothing(s: string, c: char)
    requires c !in s
    ensures c !in Strip(s)
  {
  }

  function LowerChar(c: char): char {
    if 'A' <= c <= 'Z' then (c as int + 32) as char else c
  }

  /** `s.lower()`, on the ASCII letters. */
  function Lower(s: string): (r: string)
    ensures |r| == |s|
    ensures forall i :: 0 <= i < |s| ==> r[i] == LowerChar(s[i])
  {
    seq(|s|, i requires 0 <= i < |s| => LowerChar(s[i]))
  }

  /** Python's `pat in s` for strings. */
  predicate Contains(s: string, pat: string) {
    exists i :: 0 <= i <= |s| && pat <= s[i..]
  }

  /** Python's `s.startswith(p)`. */
  predicate StartsWith(s: string, p: string) {
    p <= s
  }

  /** Python's `s.replace(pat, rep)`: every non-overlapping occurrence of `pat`, found left to
      right, is replaced by `rep`, in a single pass over `s`. */
  function ReplaceAll(s: string, pat: string, rep: string): string
    requires |pat| > 0
    decreases |s|
  {
    if |s| < |pat| then s
    else if s[..|pat|] == pat then rep + ReplaceAll(s[|pat|..], pat, rep)
    else [s[0]] + ReplaceAll(s[1..], pat, rep)
  }

  /** Replacing a pattern that does not occur changes nothing. */
  lemma {:induction false} ReplaceAbsent(s: string, pat: string, rep: string)
    requires |pat| > 0 && !Contains(s, pat)
    ensures ReplaceAll(s, pat, rep) == s
    decreases |s|
  {
    if |s| >= |pat| {
      assert s[0..] == s;
      assert !Contains(s[1..], pat) by {
        forall i | 0 <= i <= |s[1..]|
          ensures !(pat <= s[1..][i..])
        {
          assert s[1..][i..] == s[i + 1..];
        }
      }
      ReplaceAbsent(s[1..], pat, rep);
    }
  }

  /** A text starts with any of its prefixes. */
  lemma StartsWithConcat(p: string, mid: string, rest: string)
    ensures StartsWith(p + mid + rest, p)
  {
  }

  /** Dropping the first part of a concatenation leaves the rest. */
  lemma DropFront(a: string, b: string, c: string, t: string)
    ensures |a| <= |a + b + c + t| && (a + b + c + t)[|a|..] == b + (c + t)
  {
  }

  /** A leading whitespace character makes no difference to `strip`. */
  lemma StripSkipsSpace(c: char, s: string)
    requires IsSpace(c)
    ensures Strip([c] + s) == Strip(s)
  {
  }

  /** `s.replace(c, "")` for one character `c`: no `c` is left and every other character keeps
      its number of occurrences. */
  function RemoveChar(s: string, c: char): (r: string)
    ensures c !in r
    ensures |r| <= |s|
    ensures forall x :: x != c ==> multiset(r)[x] == multiset(s)[x]
    decreases |s|
  {
    if s == [] then []
    else
      var rest := RemoveChar(s[1..], c);
      assert s == [s[0]] + s[1..];
      if s[0] == c then rest else [s[0]] + rest
  }

  /** Removing a character that does not occur changes nothing. */
  lemma {:induction false} RemoveCharAbsent(s: string, c: char)
    requires c !in s
    ensures RemoveChar(s, c) == s
    decreases |s|
  {
    if s != [] {
      RemoveCharAbsent(s[1..], c);
      assert s == [s[0]] + s[1..];
    }
  }

  /** Removing one character is `str.replace` with the one-character pattern and `""`. */
  lemma {:induction false} RemoveCharIsReplace(s: string, c: char)
    ensures ReplaceAll(s, [c], "") == RemoveChar(s, c)
    decreases |s|
  {
    if s != [] {
      RemoveCharIsReplace(s[1..], c);
      assert s[..1] == [s[0]];
    }
  }

  /** Replacing a pattern of two `x`s by one `x` leaves every other character untouched in
      number and never adds an `x`. */
  lemma {:induction false} CollapseKeepsOthers(s: string, x: char)
    ensures forall c :: c != x ==> multiset(ReplaceAll(s, [x, x], [x]))[c] == multiset(s)[c]
    ensures multiset(ReplaceAll(s, [x, x], [x]))[x] <= multiset(s)[x]
    ensures |ReplaceAll(s, [x, x], [x])| <= |s|
    decreases |s|
  {
    if |s| >= 2 {
      if s[..2] == [x, x] {
        CollapseKeepsOthers(s[2..], x);
        assert s == [x, x] + s[2..];
      } else {
        CollapseKeepsOthers(s[1..], x);
        assert s == [s[0]] + s[1..];
      }
    }
  }

  /** Index of the first `c` in `s`. */
  function IndexOf(s: string, c: char): (i: nat)
    requires c in s
    ensures i < |s| && s[i] == c && c !in s[..i]
  {
    if s[0] == c then 0 else 1 + IndexOf(s[1..], c)
  }

  /** Python's `s.split(sep)` for a one-character separator: the pieces between separators,
      always at least one (the empty string splits into `[""]`). */
  function Split(s: string, sep: char): (r: seq<string>)
    ensures |r| >= 1
    ensures forall k :: 0 <= k < |r| ==> sep !in r[k]
    decreases |s|
  {
    if sep !in s then [s]
    else
      var i := IndexOf(s, sep);
      [s[..i]] + Split(s[i + 1..], sep)
  }

  /** Python's `sep.join(parts)`. */
  function Join(parts: seq<string>, sep: string): string
    decreases |parts|
  {
    if |parts| == 0 then ""
    else if |parts| == 1 then parts[0]
    else parts[0] + sep + Join(parts[1..], sep)
  }

  /** One step of `Join`: the first piece, the separator, then the rest joined. */
  lemma JoinCons(first: string, rest: seq<string>, sep: string)
    requires |rest| >= 1
    ensures Join([first] + rest, sep) == first + sep + Join(rest, sep)
  {
  }

  /** Joining the pieces of a split with the separator gives the original text back. */
  lemma {:induction false} JoinSplit(s: string, sep: char)
    ensures Join(Split(s, sep), [sep]) == s
    decreases |s|
  {
    if sep in s {
      var i := IndexOf(s, sep);
      var rest := Split(s[i + 1..], sep);
      assert Split(s, sep) == [s[..i]] + rest;
      JoinSplit(s[i + 1..], sep);
      JoinCons(s[..i], rest, [sep]);
      assert s == s[..i] + [sep] + s[i + 1..];
    }
  }

  /** Splitting separator-free pieces joined by the separator gives the pieces back. */
  lemma {:induction false} SplitJoin(parts: seq<string>, sep: char)
    requires |parts| >= 1
    requires forall k :: 0 <= k < |parts| ==> sep !in parts[k]
    ensures Split(Join(parts, [sep]), sep) == parts
    decreases |parts|
  {
    if |parts| > 1 {
      var s := Join(parts, [sep]);
      assert s == parts[0] + [sep] + Join(parts[1..], [sep]);
      assert s[|parts[0]|] == sep;
      assert s[..|parts[0]|] == parts[0];
      assert IndexOf(s, sep) == |parts[0]|;
      assert s[|parts[0]| + 1..] == Join(parts[1..], [sep]);
      SplitJoin(parts[1..], sep);
    }
  }

  // ---------------------------------------------------------------------------------------
  // Decimal numbers

  predicate IsDigit(c: char) {
    '0' <= c <= '9'
  }

  predicate AllDigits(s: string) {
    forall k :: 0 <= k < |s| ==> IsDigit(s[k])
  }

  function DigitChar(d: nat): (c: char)
    requires d < 10
    ensures IsDigit(c)
  {
    ('0' as int + d) as char
  }

  function DigitValue(c: char): (d: nat)
    requires IsDigit(c)
    ensures d < 10 && DigitChar(d) == c
  {
    c as int - '0' as int
  }

  /** The value of a string of decimal digits, most significant first. */
  function DecimalValue(s: string): nat
    requires AllDigits(s)
    decreases |s|
  {
    if s == [] then 0 else DecimalValue(s[..|s| - 1]) * 10 + DigitValue(s[|s| - 1])
  }

  /** A canonical decimal numeral: non-empty, and no leading zero unless it is "0". */
  predicate Canonical(s: string) {
    |s| >= 1 && AllDigits(s) && (s[0] == '0' ==> |s| == 1)
  }

  /** `f"{n}"` for a natural number. */
  function NatToDecimal(n: nat): (r: string)
    ensures Canonical(r)
    decreases n
  {
    if n < 10 then [DigitChar(n)]
    else
      var p := NatToDecimal(n / 10);
      var r := p + [DigitChar(n % 10)];
      assert r[0] == p[0];
      r
  }

  /** Reading back a printed number gives the number. */
  lemma {:induction false} DecimalRoundTrip(n: nat)
    ensures DecimalValue(NatToDecimal(n)) == n
    decreases n
  {
    if n >= 10 {
      var p := NatToDecimal(n / 10);
      DecimalRoundTrip(n / 10);
      assert NatToDecimal(n)[..|p|] == p;
    }
  }

  lemma {:induction false} LeadingDigitBound(s: string)
    requires |s| >= 1 && AllDigits(s)
    ensures DecimalValue(s) >= DigitValue(s[0])
    decreases |s|
  {
    if |s| > 1 {
      LeadingDigitBound(s[..|s| - 1]);
    }
  }

  /** Printing the value of a canonical numeral gives the numeral back. */
  lemma {:induction false} DecimalPrintsBack(s: string)
    requires Canonical(s)
    ensures NatToDecimal(DecimalValue(s)) == s
    decreases |s|
  {
    if |s| > 1 {
      var p := s[..|s| - 1];
      assert p[0] == s[0];
      LeadingDigitBound(p);
      DecimalPrintsBack(p);
      var v := DecimalValue(s);
      assert v / 10 == DecimalValue(p);
      assert v % 10 == DigitValue(s[|s| - 1]);
      assert s == p + [s[|s| - 1]];
    }
  }

  /** Distinct numbers print differently. */
  lemma DecimalInjective(a: nat, b: nat)
    ensures NatToDecimal(a) == NatToDecimal(b) <==> a == b
  {
    if NatToDecimal(a) == NatToDecimal(b) {
      DecimalRoundTrip(a);
      DecimalRoundTrip(b);
    }
  }

  /** The longest run of digits at the start of `s`: how a reader picks a number out of text. */
  function DigitPrefix(s: string): (r: string)
    ensures r <= s && AllDigits(r)
    ensures |r| < |s| ==> !IsDigit(s[|r|])
    decreases |s|
  {
    if s == [] || !IsDigit(s[0]) then [] else [s[0]] + DigitPrefix(s[1..])
  }

  /** Digits followed by a non-digit are read back as exactly those digits. */
  lemma {:induction false} DigitPrefixOfDigits(d: string, rest: string)
    requires AllDigits(d) && (rest == [] || !IsDigit(rest[0]))
    ensures DigitPrefix(d + rest) == d
    decreases |d|
  {
    if d == [] {
      assert d + rest == rest;
    } else {
      assert (d + rest)[1..] == d[1..] + rest;
      DigitPrefixOfDigits(d[1..], rest);
    }
  }

  /** `f"{i}"` for any integer: a minus sign before the digits of a negative number. */
  function IntToDecimal(i: int): (r: string)
    ensures |r| >= 1
    ensures i >= 0 <==> IsDigit(r[0])
  {
    if i < 0 then "-" + NatToDecimal(-i) else NatToDecimal(i)
  }

  /** Python's `int(s)` on the strings `IntToDecimal` produces. */
  function ParseInt(s: string): int
    requires |s| >= 1
    requires AllDigits(if s[0] == '-' then s[1..] else s)
  {
    if s[0] == '-' then -(DecimalValue(s[1..]) as int) else DecimalValue(s)
  }

  /** Reading back a printed integer gives the integer. */
  lemma IntRoundTrip(i: int)
    ensures var s := IntToDecimal(i); AllDigits(if s[0] == '-' then s[1..] else s) && ParseInt(s) == i
  {
    var s := IntToDecimal(i);
    if i < 0 {
      assert s[1..] == NatToDecimal(-i);
      DecimalRoundTrip(-i);
    } else {
      DecimalRoundTrip(i);
    }
  }

  function Pow10(w: nat): (p: nat)
    ensures p >= 1
  {
    if w == 0 then 1 else 10 * Pow10(w - 1)
  }

  /** The last `w` decimal digits of `n`, zero-padded on the left, as `strftime` prints dates. */
  function ZeroPadded(n: nat, w: nat): (r: string)
    ensures |r| == w && AllDigits(r)
    decreases w
  {
    if w == 0 then "" else ZeroPadded(n / 10, w - 1) + [DigitChar(n % 10)]
  }

  /** A number below `10^w` reads back from its `w`-digit padded form. */
  lemma {:induction false} ZeroPaddedRoundTrip(n: nat, w: nat)
    requires n < Pow10(w)
    ensures DecimalValue(ZeroPadded(n, w)) == n
    decreases w
  {
    if w > 0 {
      ZeroPaddedRoundTrip(n / 10, w - 1);
      var r := ZeroPadded(n, w);
      assert r[..|r| - 1] == ZeroPadded(n / 10, w - 1);
    }
  }
}

=== FILE: wrappers.dfy ===
/** Optional values and results of operations that may raise, used across the model. */
module Wrappers {

  /** A value that may be absent, standing for Python's `None`. */
  datatype Option<+T> = None | Some(value: T)

  /** The outcome of an operation that may raise: `Failure` stands for the exception. */
  datatype Result<+R, +E> = Success(value: R) | Failure(error: E)
}
